=== FILE: README.md ===
# Product mockup wizard — a Dafny model

This project models the logic under the React product-mockup wizard. The
wizard asks a few questions about a packaging product. It suggests a
package colour and template from the answers. It then lets the user place
a logo over a drawn package and export the result. The repository holds
four variants of the component, and each one gets a module with a `Wizard`
class whose fields are the component's state values and whose methods are
its handlers:

- `MockupWizard` (src/components/MockupWizard.tsx), the current wizard:
  welcome, six questions, logo upload, e-mail, a simulated preparation
  progress bar, and a result screen. On the result screen the logo is
  dragged in percent coordinates, resized and rotated with sliders, and
  exported to an 800 x 600 canvas.
- `MockupWizardOld` (src/components/MockupWizardold.tsx): four questions.
  On the last answer the suggested colour and template are applied. Then
  come a logo upload and a progress bar, and a mockup editor that centres a
  present logo when it opens.
- `MockupWizardBackup` (src/components/MockupWizard_backup.tsx): a stepper
  over steps 0..3 with clamped "next" and "back". Arriving at step 1
  applies the suggestion.
- `TestMockupWizard` (test/src/components/MockupWizard.tsx): a trimmed
  question/phase state machine with a theme switch.

Shared modules:

- `Text` models JavaScript's `includes` and `toLowerCase`.
- `Suggestions` models the `suggestDefaults` rule table and the template
  choice.
- `Placement` holds the drag and export arithmetic, over exact reals.
- `Flow` holds two shared step functions: advancing after an answer (used
  by the current, old and test wizards) and one progress tick (used by the
  current and old wizards). The backup stepper uses neither.
- `Typing` models the `useTypewriter` hook as a class.
- `LogoLayers` holds the logo state of the react-rnd variants (old and
  backup).
- `Common` holds an `Option` type, a file value and JavaScript string
  truthiness.

Timers are modelled as their bodies. Each `setInterval` tick is one
method call (`ProgressTick`, `Typewriter.Tick`). Looping methods
(`RunPreparation`, `RunToEnd`) run those ticks to the end and count them.
The 300 ms `setTimeout` that an answer schedules in the current and test
wizards is a counter of pending timers. A separate method runs one of
them (`AdvanceTimerFires`, `LogoTimerFires`), so clicks made while a timer
is pending are modelled. A browser callback whose outcome the model cannot
see becomes a parameter: the file reader's result, whether the preview is
mounted, whether a 2D context exists, and whether the image decodes.

Behaviours of the code that the model states outright:

- **Export needs a logo.** The download happens only inside the logo
  image's `onload` (src/components/MockupWizard.tsx:202-221). Without a
  logo, or if the image fails to decode, nothing is downloaded. See
  `MockupWizard.Wizard.DownloadMockup`.
- **The exported logo is not centred on its position.** The export
  translates to `(logoX + W/2, logoY + H/2)` and draws from `(-W/2, -H/2)`.
  So the box's top-left corner, not its centre, lies on the mapped point.
  The preview centres the logo on the point instead.
  `Placement.ExportCentreDrift` proves the difference.
- **The exported logo is clipped near the right and bottom edges.** Since
  the box extends right and down from the mapped point, a logo near those
  edges is partly cut off in the export. At 100 % on either axis it is drawn wholly off
  the canvas, while the preview still shows a quarter of it. See
  `Placement.EdgeExportOffCanvas`.
- **Fixed drag divisors.** The drag divides pixel deltas by fixed 400 and
  300 px, while the preview container is 320 px high. See
  `Placement.VerticalDragOutrunsPointer`.
- **The "ıslak" product rule never fires.** JavaScript lower-cases "Islak"
  to "islak" with a dotted i, so the rule looking for "ıslak" with a
  dotless ı never fires for the listed products.
- **Quick clicks skip questions.** In the current and test wizards an
  answer only schedules the advance 300 ms later, and the question stays
  clickable meanwhile. Two clicks schedule two advances. From the fifth
  question this leaves the index at 6, past the last question, and the
  questions screen then reads a question that does not exist. See
  `MockupWizard.DoubleClickOnFifthQuestion`.

## Model

| member | source | states |
|---|---|---|
| Text.IncludesChar | src/components/MockupWizard.tsx:139-141 | `includes` of a one-character string holds exactly when the character occurs in the string |
| Text.IncludesCharOf | src/components/MockupWizardold.tsx:98-101 | every character of a substring that `includes` finds occurs in the searched string |
| Text.SimpleLower | src/components/MockupWizardold.tsx:94-96 | lower-casing a single character maps A–Z and the Latin-1 capitals (not ×) 32 code points up, maps Ğ and Ş to ğ and ş, and leaves every other character as it is |
| Text.ToLowerAppend | src/components/MockupWizardold.tsx:94-96 | `toLowerCase` distributes over concatenation |
| Text.ToLowerPointwise | src/components/MockupWizardold.tsx:94-96 | without 'İ', `toLowerCase` keeps the length and lower-cases character by character |
| Text.ToLowerNoDotlessI | src/components/MockupWizardold.tsx:94-98 | `toLowerCase` never produces a dotless 'ı' that was not already in the input |
| Text.LowerLetterOrigin | src/components/MockupWizardold.tsx:94-101 | a lower-case letter (a–z or ğ, not i) in the lower-cased text comes from that letter or its capital in the input |
| Text.KeywordAbsent | src/components/MockupWizardold.tsx:94-104 | a keyword is not found after lower-casing if some letter of it (a–z or ğ, not i) occurs in neither case in the input |
| Text.OccursAfterLower | src/components/MockupWizardold.tsx:94-104 | a keyword that matches the lower-cased characters of the input at some index is found by `includes` after `toLowerCase` |
| Suggestions.SuggestDefaults | src/components/MockupWizardold.tsx:90-107 | the colour is the one from the last matching mood rule (ferah/ıslak, doğal, enerjik, premium), or #3a6ea5 when none matches; the variant is flat exactly when the style contains "minimal" and not "klasik" |
| Suggestions.NoAnswersGiveDefaults | src/components/MockupWizardold.tsx:91-96 | with no answers (each reads as "") the result is #3a6ea5 / pillow |
| Suggestions.DotlessSearchNeedsDotless | src/components/MockupWizardold.tsx:98 | the product rule can only match text that contains a dotless 'ı' |
| Suggestions.ProductRuleNeverFiresForListedOptions | src/components/MockupWizardold.tsx:41 | for each listed product option, including "Rulo Islak Havlu" and "Islak Mendil", the lower-cased product does not contain "ıslak" |
| Suggestions.IslakProductKeepsDefaultColour | src/components/MockupWizardold.tsx:98 | the answer product = "Rulo Islak Havlu" alone gives the default colour #3a6ea5, not #3A83C1 |
| Suggestions.ColourFromMood | src/components/MockupWizardold.tsx:98 | when the product answer is missing or a listed option, the first colour rule fires exactly when the mood contains "ferah" |
| Suggestions.FreshMoodMatches | src/components/MockupWizardold.tsx:53 | the mood option "Taze & Ferah" contains "ferah" after lower-casing |
| Suggestions.NaturalMoodMatches | src/components/MockupWizardold.tsx:53 | the mood option "Doğal & Sade" contains "doğal" after lower-casing |
| Suggestions.EnergeticMoodMatches | src/components/MockupWizardold.tsx:53 | the mood option "Enerjik" contains "enerjik" after lower-casing |
| Suggestions.PremiumMoodMatches | src/components/MockupWizardold.tsx:53 | the mood option "Premium" contains "premium" after lower-casing |
| Suggestions.MinimalStyleMatches | src/components/MockupWizardold.tsx:47 | the style option "Minimal" contains "minimal" after lower-casing |
| Suggestions.ClassicStyleMatches | src/components/MockupWizardold.tsx:47 | the style option "Klasik" contains "klasik" after lower-casing |
| Suggestions.FreshMoodMisses | src/components/MockupWizardold.tsx:99-101 | "Taze & Ferah" lower-cased contains none of "doğal", "enerjik", "premium" |
| Suggestions.FreshMoodMissesNatural | src/components/MockupWizardold.tsx:99 | "Taze & Ferah" lower-cased does not contain "doğal" |
| Suggestions.FreshMoodMissesEnergetic | src/components/MockupWizardold.tsx:100 | "Taze & Ferah" lower-cased does not contain "enerjik" |
| Suggestions.FreshMoodMissesPremium | src/components/MockupWizardold.tsx:101 | "Taze & Ferah" lower-cased does not contain "premium" |
| Suggestions.NaturalMoodMissesEnergetic | src/components/MockupWizardold.tsx:100 | "Doğal & Sade" lower-cased does not contain "enerjik" |
| Suggestions.NaturalMoodMissesPremium | src/components/MockupWizardold.tsx:101 | "Doğal & Sade" lower-cased does not contain "premium" |
| Suggestions.EnergeticMoodMissesPremium | src/components/MockupWizardold.tsx:101 | "Enerjik" lower-cased does not contain "premium" |
| Suggestions.MinimalStyleMissesClassic | src/components/MockupWizardold.tsx:104 | "Minimal" lower-cased does not contain "klasik" |
| Suggestions.ModernStyleMissesMinimal | src/components/MockupWizardold.tsx:103 | "Modern" lower-cased does not contain "minimal" |
| Suggestions.SportyStyleMissesMinimal | src/components/MockupWizardold.tsx:103 | "Sportif" lower-cased does not contain "minimal" |
| Suggestions.FreshMoodColour | src/components/MockupWizardold.tsx:98-101 | mood "Taze & Ferah" (with no product or a listed one) gives #3A83C1 |
| Suggestions.NaturalMoodColour | src/components/MockupWizardold.tsx:99-101 | mood "Doğal & Sade" gives #4DAA57, whatever the product |
| Suggestions.EnergeticMoodColour | src/components/MockupWizardold.tsx:100-101 | mood "Enerjik" gives #E86A33, whatever the product |
| Suggestions.PremiumMoodColour | src/components/MockupWizardold.tsx:101 | mood "Premium" gives #0F172A, whatever else was answered |
| Suggestions.StyleOptionVariant | src/components/MockupWizardold.tsx:103-104 | of the four listed styles, only "Minimal" gives flat; "Modern", "Klasik" and "Sportif" give pillow |
| Suggestions.ChooseTemplate | src/components/MockupWizard_backup.tsx:222 | the template is PillowPack exactly when the type is pillow, and FlatPack exactly when it is flat |
| Flow.AnswerStep | src/components/MockupWizard.tsx:103-117 | an answer on any question but the last leads to the next question, which is below the question count; on the last it ends the questionnaire |
| Flow.AnswersToFinishCount | src/components/MockupWizardold.tsx:195-208 | when each answer moves on before the next is given (the old wizard's immediate advance; in the current and test wizards only when each 300 ms timer runs between answers, as `AnswerAndWait` does), from question `index` it takes exactly `count - index` answers to finish, so every remaining question is asked once |
| Flow.ProgressStep | src/components/MockupWizard.tsx:149-158 | a tick stops exactly when progress is already ≥ 100; otherwise it strictly increases; from [0,100] it stays in [0,100] and never decreases |
| Flow.TicksToStopCount | src/components/MockupWizard.tsx:149-158 | from progress p the interval clears after exactly 101 − p ticks |
| Placement.Clamp | src/components/MockupWizard.tsx:173-176 | the result lies in [0,100], equals an in-range input, and is 0 or 100 at or past an edge |
| Placement.ClampIdempotent | src/components/MockupWizard.tsx:173-176 | clamping twice equals clamping once |
| Placement.PercentPixelsRoundTrip | src/components/MockupWizard.tsx:170-171 | the px→percent and percent→px conversions are inverse on any non-zero extent |
| Placement.DragPosition | src/components/MockupWizard.tsx:165-176 | a drag move gives a position in [0,100]², equal to the clamped gesture-start snapshot plus Δx/400·100 and Δy/300·100 |
| Placement.DragZeroDelta | src/components/MockupWizard.tsx:170-176 | moving back to the start point restores an in-range snapshot exactly |
| Placement.DragFollowsPointer | src/components/MockupWizard.tsx:170-176 | inside the bounds the logo moves one percentage point per 4 px horizontally and per 3 px vertically |
| Placement.DragPastEdge | src/components/MockupWizard.tsx:170-176 | a delta past an edge gives exactly 0 or 100, and clamping that value again changes nothing |
| Placement.VerticalDragOutrunsPointer | src/components/MockupWizard.tsx:171 | from the top edge, any vertical drag of 300 px up to the 320 px preview height puts the logo at exactly 100 %, so the last 20 px of pointer travel do not move it |
| Placement.ExportDraw | src/components/MockupWizard.tsx:205-213 | the exported logo is square with side size/100·200; its unrotated top-left is (x/100·800, y/100·600), which for in-range positions lies inside the 800 x 600 canvas |
| Placement.PreviewBox | src/components/MockupWizard.tsx:704-710 | the preview box is centred on (x %, y %) of the container, with width and height size % of its width and height |
| Placement.ExportCentreDrift | src/components/MockupWizard.tsx:205-213 | the exported logo's centre is `size` px right of and below the mapped point, so relative to the preview it drifts by size/800 and size/600 |
| Placement.DefaultExportOffCentre | src/components/MockupWizard.tsx:205-213 | the initial placement (50 %, 50 %, size 20) exports centred on (420, 320), not the canvas centre (400, 300) |
| Placement.EdgeExportOffCanvas | src/components/MockupWizard.tsx:205-213 | the exported square has side 2·size px and overruns the right edge exactly when x > 100 − size/4 and the bottom edge exactly when y > 100 − size/3; at x = 100 or y = 100 it starts on the canvas edge, so nothing of it is drawn |
| Typing.Typewriter.constructor | src/components/MockupWizard.tsx:13-18 | the hook starts with empty text shown, not complete, and the interval running |
| Typing.Typewriter.Restart | src/components/MockupWizard.tsx:13-29 | a new text restarts the hook from nothing shown |
| Typing.Typewriter.Tick | src/components/MockupWizard.tsx:19-25 | a tick reveals one more character while some are hidden; complete is set (and the interval cleared) exactly on the tick after all are shown; the shown text is always `text[..i]` |
| Typing.Typewriter.RunToEnd | src/components/MockupWizard.tsx:18-26 | letting the interval run shows the whole text, marks it complete, and takes `|text| − i + 1` ticks |
| LogoLayers.LogoLayer.constructor | src/components/MockupWizardold.tsx:178-183 | a new layer holds the defaults: no logo, opacity 100, rotation 0, no blend, 280 x 110 at (310, 105) |
| LogoLayers.LogoLayer.Reset | src/components/MockupWizardold.tsx:242-249 | `resetLogo` restores every default, whatever the prior state, leaving no logo |
| LogoLayers.LogoLayer.Load | src/components/MockupWizardold.tsx:220-221 | the read data URL becomes the logo; nothing else changes |
| LogoLayers.LogoLayer.SetOpacity | src/components/MockupWizardold.tsx:641 | the opacity slider sets a value in 0..100 |
| LogoLayers.LogoLayer.SetRotation | src/components/MockupWizardold.tsx:645 | the rotation slider sets a value in −45..45 |
| LogoLayers.LogoLayer.SetBlendMultiply | src/components/MockupWizardold.tsx:649 | the switch sets multiply blending |
| LogoLayers.LogoLayer.DragStop | src/components/MockupWizardold.tsx:577 | the reported drag position becomes the position |
| LogoLayers.LogoLayer.ResizeStop | src/components/MockupWizardold.tsx:578-581 | the reported box becomes size and position |
| LogoLayers.LogoLayer.Centre | src/components/MockupWizardold.tsx:266 | the position becomes (310, 105) |
| MockupWizard.IsValidEmail | src/components/MockupWizard.tsx:139-141 | an address is valid exactly when it contains '@' and is longer than 3 characters |
| MockupWizard.Wizard.constructor | src/components/MockupWizard.tsx:77-92 | the initial state: light theme, welcome phase, first question, no answers, no logo, position (50, 50), size 20, rotation 0, colour #3A83C1 |
| MockupWizard.Wizard.ToggleTheme | src/components/MockupWizard.tsx:95-97 | the theme flag is negated |
| MockupWizard.Wizard.StartQuestions | src/components/MockupWizard.tsx:99-101 | the phase becomes questions |
| MockupWizard.Wizard.HandleAnswer | src/components/MockupWizard.tsx:103-117 | the answer is stored under the shown question's id; one advance is scheduled before the last question, the move to the logo phase on it; the index does not change yet |
| MockupWizard.Wizard.AdvanceTimerFires | src/components/MockupWizard.tsx:109-111 | a scheduled advance adds one to the index as it is when the timer runs |
| MockupWizard.Wizard.LogoTimerFires | src/components/MockupWizard.tsx:113-115 | a scheduled move sets the logo phase |
| MockupWizard.Wizard.AnswerAndWait | src/components/MockupWizard.tsx:103-117 | one answer with nothing pending, then its timer: the next question is shown, or after the last one the phase becomes logo; the index stays on a question |
| MockupWizard.Wizard.ClicksWithinDelay | src/components/MockupWizard.tsx:103-117 | k answers on one question before its timer runs move the index k places, skipping questions, and past the last question when k exceeds the questions left; every one of them is stored under that same question's id, and no other answer changes |
| MockupWizard.DoubleClickOnFifthQuestion | src/components/MockupWizard.tsx:103-117 | two quick clicks on the fifth question leave the index at 6 in the questions phase, where no question exists to render (line 443) |
| MockupWizard.Wizard.EditTextAnswer | src/components/MockupWizard.tsx:452-455 | typing overwrites only the current question's answer |
| MockupWizard.Wizard.HandleLogoUpload | src/components/MockupWizard.tsx:119-133 | with a file it is remembered and a non-empty read result becomes the logo; without a file nothing changes |
| MockupWizard.Wizard.GoToEmail | src/components/MockupWizard.tsx:135-137 | the phase becomes email |
| MockupWizard.Wizard.SetEmail | src/components/MockupWizard.tsx:588 | the input sets the address |
| MockupWizard.Wizard.HandleEmailSubmit | src/components/MockupWizard.tsx:143-148 | only a valid address moves to preparing with progress 0; otherwise nothing changes |
| MockupWizard.Wizard.ProgressTick | src/components/MockupWizard.tsx:149-158 | below 100 progress grows by one; at 100 it stays, the interval stops and the phase becomes result |
| MockupWizard.Wizard.RunPreparation | src/components/MockupWizard.tsx:149-158 | running the interval out ends at 100 % in the result phase after 101 − p ticks |
| MockupWizard.Wizard.BeginDrag | src/components/MockupWizard.tsx:163-168 | the gesture remembers the pointer start and the current position |
| MockupWizard.Wizard.DragMove | src/components/MockupWizard.tsx:169-177 | each move sets the position from the gesture snapshot alone, inside [0,100]² |
| MockupWizard.Wizard.SetLogoSize | src/components/MockupWizard.tsx:760-767 | the size slider sets a value in 5..50 |
| MockupWizard.Wizard.SetLogoRotation | src/components/MockupWizard.tsx:780-787 | the rotation slider sets a value in −180..180 |
| MockupWizard.Wizard.SetMockupColor | src/components/MockupWizard.tsx:741 | the colour input sets the colour |
| MockupWizard.Wizard.DownloadMockup | src/components/MockupWizard.tsx:188-226 | a file is produced exactly when the preview is mounted, a 2D context exists, a logo is set and it decodes: "mockup.png", 800 x 600, filled with the mockup colour, with the square logo (side 10..100 px) drawn by `ExportDraw`, its unrotated top-left corner inside the canvas |
| MockupWizardOld.Wizard.constructor | src/components/MockupWizardold.tsx:168-183 | the initial state: welcome phase, first question, no answers, progress 0, #3a6ea5, pillow, default logo |
| MockupWizardOld.Wizard.StartQuestions | src/components/MockupWizardold.tsx:212-214 | the phase becomes questions |
| MockupWizardOld.Wizard.HandleAnswer | src/components/MockupWizardold.tsx:196-209 | the answer is stored under the current id; before the last question the index advances and nothing else changes; on the last one colour and type become `suggestDefaults` of the completed answers and the phase becomes logo |
| MockupWizardOld.Wizard.EditTextAnswer | src/components/MockupWizardold.tsx:439 | typing overwrites only the current question's answer |
| MockupWizardOld.Wizard.AutoCentre | src/components/MockupWizardold.tsx:263-268 | in the mockup phase with a logo present the position becomes (310, 105); otherwise it is unchanged |
| MockupWizardOld.Wizard.OnLogoChange | src/components/MockupWizardold.tsx:217-222 | a read data URL becomes the logo (none: nothing changes); a changed, truthy logo in the mockup phase is centred, and in every other case the position is kept |
| MockupWizardOld.Wizard.StartMockupPreparation | src/components/MockupWizardold.tsx:225-228 | the phase becomes preparing with progress 0 |
| MockupWizardOld.Wizard.ProgressTick | src/components/MockupWizardold.tsx:230-239 | below 100 progress grows by one; at 100 the phase becomes mockup, and entering it centres a present logo; otherwise the position is kept |
| MockupWizardOld.Wizard.RunPreparation | src/components/MockupWizardold.tsx:230-239 | running the interval out ends at 100 % in the mockup phase after 101 − p ticks, with a present logo at (310, 105) and an absent one's position kept |
| MockupWizardOld.Wizard.ResetLogo | src/components/MockupWizardold.tsx:242-249 | every logo field returns to its default (no control in this variant calls `resetLogo`, so the handler is unreachable there; only the backup wires it to a button) |
| MockupWizardOld.Wizard.SetMockupColor | src/components/MockupWizardold.tsx:606-613 | the palette sets the colour |
| MockupWizardOld.Wizard.SetMockupType | src/components/MockupWizardold.tsx:623 | the select sets the template type |
| MockupWizardOld.Wizard.CurrentTemplate | src/components/MockupWizardold.tsx:260 | the drawing is PillowPack exactly for the pillow type |
| MockupWizardBackup.NextStep | src/components/MockupWizard_backup.tsx:193 | "next" stays in [0,3], advances by one below 3 and is a no-op at 3 |
| MockupWizardBackup.BackStep | src/components/MockupWizard_backup.tsx:194 | "back" stays in [0,3], goes back one above 0 and is a no-op at 0 |
| MockupWizardBackup.NextBackInverse | src/components/MockupWizard_backup.tsx:193-194 | back undoes next except at 3, next undoes back except at 0, and each is a no-op exactly at its bound |
| MockupWizardBackup.ThreeClicksReachEnds | src/components/MockupWizard_backup.tsx:193-194 | three clicks of next reach step 3 and three of back reach step 0 from any step |
| MockupWizardBackup.Wizard.constructor | src/components/MockupWizard_backup.tsx:162-175 | the initial state: step 0, no answers, #3a6ea5, pillow, default logo |
| MockupWizardBackup.Wizard.StepEffect | src/components/MockupWizard_backup.tsx:180-187 | on step 1 colour and type become `suggestDefaults` of the current answers; on other steps they are unchanged |
| MockupWizardBackup.Wizard.Next | src/components/MockupWizard_backup.tsx:193 | the step becomes min(step + 1, 3); leaving step 0 applies the suggestion |
| MockupWizardBackup.Wizard.Back | src/components/MockupWizard_backup.tsx:194 | the step becomes max(step − 1, 0); returning from step 2 to 1 applies the suggestion again |
| MockupWizardBackup.Wizard.HandleAnswer | src/components/MockupWizard_backup.tsx:189-191 | only the answer under `id` changes; every other answer is kept |
| MockupWizardBackup.Wizard.OnLogoChange | src/components/MockupWizard_backup.tsx:197-202 | a read data URL becomes the logo; without a file nothing changes |
| MockupWizardBackup.Wizard.ResetLogo | src/components/MockupWizard_backup.tsx:204-211 | every logo field returns to its default |
| MockupWizardBackup.Wizard.SetMockupColor | src/components/MockupWizard_backup.tsx:319-335 | the hex input, picker and palette set the colour |
| MockupWizardBackup.Wizard.SetMockupType | src/components/MockupWizard_backup.tsx:306 | the select sets the template type |
| MockupWizardBackup.Wizard.CurrentTemplate | src/components/MockupWizard_backup.tsx:222 | the drawing is PillowPack exactly for the pillow type |
| TestMockupWizard.Wizard.constructor | test/src/components/MockupWizard.tsx:75-81 | the initial state: light theme, welcome phase, first question, no answers, no file |
| TestMockupWizard.Wizard.ToggleTheme | test/src/components/MockupWizard.tsx:83-85 | the theme flag is negated |
| TestMockupWizard.Wizard.ToggleThemeTwice | test/src/components/MockupWizard.tsx:83-85 | toggling twice restores the original theme |
| TestMockupWizard.Wizard.StartQuestions | test/src/components/MockupWizard.tsx:87-89 | the phase becomes questions |
| TestMockupWizard.Wizard.HandleAnswer | test/src/components/MockupWizard.tsx:91-105 | the answer is stored under the shown question's id; one advance is scheduled before the last question, the move to the logo phase on it; the index does not change yet |
| TestMockupWizard.Wizard.AdvanceTimerFires | test/src/components/MockupWizard.tsx:97-99 | a scheduled advance adds one to the index as it is when the timer runs |
| TestMockupWizard.Wizard.LogoTimerFires | test/src/components/MockupWizard.tsx:101-103 | a scheduled move sets the logo phase |
| TestMockupWizard.Wizard.AnswerAndWait | test/src/components/MockupWizard.tsx:91-105 | one answer with nothing pending, then its timer: the next question is shown, or after the last one the phase becomes logo; the index stays on a question |
| TestMockupWizard.Wizard.ClicksWithinDelay | test/src/components/MockupWizard.tsx:91-105 | k answers on one question before its timer runs move the index k places, skipping questions, and past the last question when k exceeds the questions left; every one of them is stored under that same question's id, and no other answer changes |
| TestMockupWizard.Wizard.EditTextAnswer | test/src/components/MockupWizard.tsx:330-333 | typing overwrites only the shown question's answer |
| TestMockupWizard.DoubleClickOnFifthQuestion | test/src/components/MockupWizard.tsx:91-105 | two quick clicks on the fifth question leave the index at 6 in the questions phase, where no question exists to render (line 321) |
| TestMockupWizard.Wizard.AnswerAll | test/src/components/MockupWizard.tsx:33-70 | answering the six questions in turn, waiting for each timer, records each reply under its question's id and ends in the logo phase |
| TestMockupWizard.Wizard.HandleLogoUpload | test/src/components/MockupWizard.tsx:107-112 | a picked file is remembered; without one nothing changes |
| TestMockupWizard.Wizard.FinishWizard | test/src/components/MockupWizard.tsx:114-116 | the phase becomes result |

## Left out

- Rendering: JSX, Tailwind classes, inline styles and the PillowPack/FlatPack SVG drawings. Only the choice between the two templates is modelled.
- Timing: the 80 ms and 100 ms interval periods and React's batching of state updates. Each interval callback is one atomic step, and two intervals are never interleaved. The 300 ms answer timers are pending state; a pending timer may run at any point, and the delay itself is not modelled.
- Browser and library calls: FileReader, Image decoding, canvas drawing and `toDataURL`, `html-to-image`'s `toPng`, and the anchor-click download. Their outcomes are parameters or are not modelled. The `downloadPng` handlers of the old and backup variants produce an image of the DOM and are not part of this model.
- The degree-to-radian conversion and the rotation applied in the export. The rotation angle is carried through unchanged, and boxes are stated before rotation.
- react-rnd's own drag and resize behaviour, including `bounds="parent"`. Only the positions and sizes it reports are modelled.
- The colour picker, sliders and select widgets. Their ranges are preconditions of the setters.
- `window.open`, `alert`, the registration and removal of document listeners, and the theme colours.
- Text.ToLower: covers only ASCII, the Latin-1 capitals, Ğ, Ş and İ. Other scripts are left as they are, whereas JavaScript's `toLowerCase` lowers every Unicode capital.
- Strings are sequences of Unicode characters. JavaScript's `length` counts UTF-16 code units, so `IsValidEmail` and the typewriter differ from the source on characters outside the Basic Multilingual Plane.
- Numbers are exact reals. IEEE double rounding in the percent and pixel arithmetic is not modelled.
- The export draws the image stretched into the square box. The image's aspect ratio is not modelled.
- The question texts and option lists other than those the rule table reads.

=== FILE: common.dfy ===
/** Small value types shared by the wizard variants. */
module Common {

  datatype Option<+T> = None | Some(value: T)

  /** A file picked in the file input; only its name is observable to the model. */
  datatype File = File(name: string)

  /** JavaScript truthiness of a `string | null` state value: null and "" are falsy. */
  predicate Truthy(s: Option<string>) {
    s.Some? && s.value != ""
  }
}

=== FILE: flow.dfy ===
/**
 * Two step functions shared by the wizard variants. Moving on after an
 * answer (next question, or leave the questionnaire after the last one) is
 * used by the current, old and test wizards; one tick of the simulated
 * "preparing" progress bar by the current and old wizards. The backup
 * stepper uses neither.
 */
module Flow {

  /** What answering the question at some index leads to. */
  datatype AnswerOutcome = NextQuestion(index: nat) | QuestionsDone

  /**
   * After answering question `index` of `count`: the next index while one
   * is left, otherwise the questionnaire is over and the index stays put.
   */
  function AnswerStep(index: nat, count: nat): (o: AnswerOutcome)
    requires index < count
    ensures o.NextQuestion? ==> o.index == index + 1 && o.index < count
    ensures o.QuestionsDone? <==> index == count - 1
  {
    if index < count - 1 then NextQuestion(index + 1) else QuestionsDone
  }

  /** How many answers it takes, from question `index`, to finish the questionnaire. */
  function AnswersToFinish(index: nat, count: nat): nat
    requires index < count
    decreases count - index
  {
    match AnswerStep(index, count)
    case QuestionsDone => 1
    case NextQuestion(next) => 1 + AnswersToFinish(next, count)
  }

  /**
   * When each answer moves on before the next one is given (the old
   * wizard's immediate advance, or a timed wizard whose timer runs between
   * answers), every remaining question is asked exactly once: from `index`,
   * it takes `count - index` answers.
   */
  lemma {:induction false} AnswersToFinishCount(index: nat, count: nat)
    requires index < count
    ensures AnswersToFinish(index, count) == count - index
    decreases count - index
  {
    match AnswerStep(index, count)
    case QuestionsDone =>
    case NextQuestion(next) => AnswersToFinishCount(next, count);
  }

  /** The new progress value, and whether the interval is cleared and the phase moves on. */
  datatype Tick = Tick(progress: int, stopped: bool)

  /**
   * One tick of the progress interval: below 100 add one; at 100 (or more)
   * stay at 100, stop the interval and leave the "preparing" phase.
   */
  function ProgressStep(prev: int): (t: Tick)
    ensures t.stopped <==> prev >= 100
    ensures 0 <= prev <= 100 ==> prev <= t.progress <= 100
    ensures t.stopped || t.progress > prev
  {
    if prev >= 100 then Tick(100, true) else Tick(prev + 1, false)
  }

  /** Number of ticks from progress `p` up to and including the one that stops the interval. */
  function TicksToStop(p: int): nat
    requires 0 <= p <= 100
    decreases 100 - p
  {
    var t := ProgressStep(p);
    if t.stopped then 1 else 1 + TicksToStop(t.progress)
  }

  /** The preparation takes `101 - p` ticks from progress `p`: 101 ticks (about 10 s at 100 ms) from 0. */
  lemma {:induction false} TicksToStopCount(p: int)
    requires 0 <= p <= 100
    ensures TicksToStop(p) == 101 - p
    decreases 100 - p
  {
    if p < 100 {
      TicksToStopCount(p + 1);
    }
  }
}

=== FILE: logo_layers.dfy ===
/**
 * The logo layer state of the react-rnd based variants (MockupWizardold.tsx
 * and MockupWizard_backup.tsx declare the same six state values): the
 * uploaded image, opacity, rotation, multiply blending, and the pixel box
 * react-rnd reports for it.
 */
module LogoLayers {
  import opened Common

  datatype Size = Size(w: real, h: real)
  datatype Pos = Pos(x: real, y: real)

  /** The defaults the layer starts from and `resetLogo` restores. */
  const DefaultOpacity: int := 100
  const DefaultRotation: int := 0
  const DefaultSize: Size := Size(280.0, 110.0)
  /** The "centre" position the auto-centre effect also uses. */
  const DefaultPos: Pos := Pos(310.0, 105.0)

  class LogoLayer {
    var dataUrl: Option<string>
    var opacity: int
    var rotation: int
    var blendMultiply: bool
    var size: Size
    var pos: Pos

    /** The slider ranges: opacity 0..100, rotation -45..45 degrees. */
    ghost predicate Valid()
      reads this
    {
      0 <= opacity <= 100 && -45 <= rotation <= 45
    }

    /** Whether a logo is shown (`logoDataUrl` is truthy). */
    predicate Present()
      reads this
    {
      Truthy(dataUrl)
    }

    /** True when every field holds its default. */
    predicate IsDefault()
      reads this
    {
      dataUrl == None && opacity == DefaultOpacity && rotation == DefaultRotation
      && !blendMultiply && size == DefaultSize && pos == DefaultPos
    }

    constructor ()
      ensures Valid() && IsDefault()
    {
      dataUrl := None;
      opacity := DefaultOpacity;
      rotation := DefaultRotation;
      blendMultiply := false;
      size := DefaultSize;
      pos := DefaultPos;
    }

    /** `resetLogo`: every field back to its default, whatever it held before. */
    method Reset()
      modifies this
      ensures Valid() && IsDefault() && !Present()
    {
      dataUrl := None;
      opacity := DefaultOpacity;
      rotation := DefaultRotation;
      blendMultiply := false;
      size := DefaultSize;
      pos := DefaultPos;
    }

    /** The file reader's data URL becomes the logo; nothing else changes. */
    method Load(url: string)
      requires Valid()
      modifies this`dataUrl
      ensures Valid() && dataUrl == Some(url)
    {
      dataUrl := Some(url);
    }

    /** The opacity slider (0..100). */
    method SetOpacity(v: int)
      requires Valid() && 0 <= v <= 100
      modifies this`opacity
      ensures Valid() && opacity == v
    {
      opacity := v;
    }

    /** The rotation slider (-45..45). */
    method SetRotation(v: int)
      requires Valid() && -45 <= v <= 45
      modifies this`rotation
      ensures Valid() && rotation == v
    {
      rotation := v;
    }

    /** The multiply-blend switch. */
    method SetBlendMultiply(b: bool)
      requires Valid()
      modifies this`blendMultiply
      ensures Valid() && blendMultiply == b
    {
      blendMultiply := b;
    }

    /** `onDragStop`: the position react-rnd reports becomes the position. */
    method DragStop(x: real, y: real)
      requires Valid()
      modifies this`pos
      ensures Valid() && pos == Pos(x, y)
    {
      pos := Pos(x, y);
    }

    /** `onResizeStop`: the element's new box becomes size and position. */
    method ResizeStop(w: real, h: real, x: real, y: real)
      requires Valid()
      modifies this`size, this`pos
      ensures Valid() && size == Size(w, h) && pos == Pos(x, y)
    {
      size := Size(w, h);
      pos := Pos(x, y);
    }

    /** The auto-centre step: the position goes back to (310, 105). */
    method Centre()
      requires Valid()
      modifies this`pos
      ensures Valid() && pos == DefaultPos
    {
      pos := DefaultPos;
    }
  }
}

=== FILE: mockup_wizard.dfy ===
/**
 * The current wizard, src/components/MockupWizard.tsx: welcome, six
 * questions, logo upload, e-mail, a simulated "preparing" progress bar and
 * the result screen, where the logo is dragged over a coloured mockup,
 * sized and rotated with sliders, and exported to an 800 x 600 PNG.
 */
module MockupWizard {
  import opened Common
  import opened Flow
  import opened Placement
  import Text

  datatype Phase = Welcome | Questions | LogoUpload | Email | Preparing | Result

  /** The ids of the six questions, in order. */
  const QuestionIds: seq<int> := [1, 2, 3, 4, 5, 6]

  /** Slider bounds for the logo size (percent) and rotation (degrees). */
  const MinLogoSize: real := 5.0
  const MaxLogoSize: real := 50.0
  const MinRotation: real := -180.0
  const MaxRotation: real := 180.0

  /** `email.includes("@") && email.length > 3`. */
  function IsValidEmail(email: string): (ok: bool)
    ensures ok <==> '@' in email && |email| > 3
  {
    Text.IncludesChar(email, '@');
    Text.Includes(email, "@") && |email| > 3
  }

  /** The file `downloadMockup` offers: name, canvas size, background fill and the logo drawing. */
  datatype Download = Download(fileName: string, width: real, height: real, background: string, logo: LogoDraw)

  class Wizard {
    var isDark: bool
    var currentPhase: Phase
    var currentQuestionIndex: nat
    var answers: map<int, string>
    /** `setTimeout` callbacks scheduled by answers and not yet run: index advances, and moves to the logo phase. */
    var pendingAdvances: nat
    var pendingLogo: nat
    var logoFile: Option<File>
    var email: string
    var progress: int
    var logoDataUrl: string
    var logoPosition: Point
    var logoSize: real
    var logoRotation: real
    var mockupColor: string

    /**
     * Progress, position, size and rotation stay in their ranges. The
     * question index has no bound: see `ShowsQuestion`.
     */
    ghost predicate Valid()
      reads this
    {
      && 0 <= progress <= 100
      && InRange(logoPosition)
      && MinLogoSize <= logoSize <= MaxLogoSize
      && MinRotation <= logoRotation <= MaxRotation
    }

    /** The initial state of every `useState`. */
    constructor ()
      ensures Valid()
      ensures !isDark && currentPhase == Welcome && currentQuestionIndex == 0 && answers == map[]
      ensures pendingAdvances == 0 && pendingLogo == 0
      ensures logoFile == None && email == "" && progress == 0 && logoDataUrl == ""
      ensures logoPosition == Point(50.0, 50.0) && logoSize == 20.0 && logoRotation == 0.0
      ensures mockupColor == "#3A83C1"
    {
      isDark := false;
      currentPhase := Welcome;
      currentQuestionIndex := 0;
      answers := map[];
      pendingAdvances := 0;
      pendingLogo := 0;
      logoFile := None;
      email := "";
      progress := 0;
      logoDataUrl := "";
      logoPosition := Point(50.0, 50.0);
      logoSize := 20.0;
      logoRotation := 0.0;
      mockupColor := "#3A83C1";
    }

    method ToggleTheme()
      modifies this`isDark
      ensures isDark == !old(isDark)
    {
      isDark := !isDark;
    }

    method StartQuestions()
      modifies this`currentPhase
      ensures currentPhase == Questions
    {
      currentPhase := Questions;
    }

    /**
     * Whether the index names a question. The questions screen renders
     * `QUESTIONS[currentQuestionIndex]`, which throws past the last one.
     */
    predicate ShowsQuestion()
      reads this
    {
      currentQuestionIndex < |QuestionIds|
    }

    /**
     * `handleAnswer`: store the answer under the shown question's id, then
     * schedule, 300 ms later, either one more question (before the last
     * one) or the move to the logo phase. The index itself does not change
     * yet, so the same question stays clickable until the timer runs.
     */
    method HandleAnswer(answer: string)
      requires Valid() && ShowsQuestion()
      modifies this`answers, this`pendingAdvances, this`pendingLogo
      ensures Valid()
      ensures answers == old(answers)[QuestionIds[currentQuestionIndex] := answer]
      ensures currentQuestionIndex < |QuestionIds| - 1 ==>
                pendingAdvances == old(pendingAdvances) + 1 && pendingLogo == old(pendingLogo)
      ensures currentQuestionIndex == |QuestionIds| - 1 ==>
                pendingLogo == old(pendingLogo) + 1 && pendingAdvances == old(pendingAdvances)
    {
      answers := answers[QuestionIds[currentQuestionIndex] := answer];
      match AnswerStep(currentQuestionIndex, |QuestionIds|)
      case NextQuestion(_) => pendingAdvances := pendingAdvances + 1;
      case QuestionsDone => pendingLogo := pendingLogo + 1;
    }

    /** A scheduled advance runs: `prev => prev + 1` on whatever the index is by then. */
    method AdvanceTimerFires()
      requires Valid() && pendingAdvances > 0
      modifies this`currentQuestionIndex, this`pendingAdvances
      ensures Valid()
      ensures currentQuestionIndex == old(currentQuestionIndex) + 1
      ensures pendingAdvances == old(pendingAdvances) - 1
    {
      currentQuestionIndex := currentQuestionIndex + 1;
      pendingAdvances := pendingAdvances - 1;
    }

    /** A scheduled move to the logo phase runs. */
    method LogoTimerFires()
      requires Valid() && pendingLogo > 0
      modifies this`currentPhase, this`pendingLogo
      ensures Valid()
      ensures currentPhase == LogoUpload && pendingLogo == old(pendingLogo) - 1
    {
      currentPhase := LogoUpload;
      pendingLogo := pendingLogo - 1;
    }

    /**
     * One answer with no timer pending, followed by its timer: the next
     * question is shown, or after the last one the phase becomes logo;
     * the index never leaves the questions.
     */
    method AnswerAndWait(answer: string)
      requires Valid() && ShowsQuestion() && pendingAdvances == 0 && pendingLogo == 0
      modifies this`answers, this`pendingAdvances, this`pendingLogo, this`currentQuestionIndex, this`currentPhase
      ensures Valid() && ShowsQuestion() && pendingAdvances == 0 && pendingLogo == 0
      ensures answers == old(answers)[QuestionIds[old(currentQuestionIndex)] := answer]
      ensures old(currentQuestionIndex) < |QuestionIds| - 1 ==>
                currentQuestionIndex == old(currentQuestionIndex) + 1 && currentPhase == old(currentPhase)
      ensures old(currentQuestionIndex) == |QuestionIds| - 1 ==>
                currentQuestionIndex == old(currentQuestionIndex) && currentPhase == LogoUpload
    {
      HandleAnswer(answer);
      if pendingAdvances > 0 {
        AdvanceTimerFires();
      } else {
        LogoTimerFires();
      }
    }

    /**
     * `clicks` answers on a question before the last one, all within the
     * 300 ms before the first timer runs, and then every timer: the index
     * moves `clicks` places, skipping questions, and runs past the last
     * question when that is more than remain; every click writes its answer
     * under the same question's id.
     */
    method ClicksWithinDelay(answer: string, clicks: nat)
      requires Valid() && currentQuestionIndex < |QuestionIds| - 1 && pendingAdvances == 0
      modifies this`answers, this`pendingAdvances, this`pendingLogo, this`currentQuestionIndex
      ensures Valid() && pendingAdvances == 0 && pendingLogo == old(pendingLogo)
      ensures currentQuestionIndex == old(currentQuestionIndex) + clicks
      ensures old(currentQuestionIndex) + clicks >= |QuestionIds| ==> !ShowsQuestion()
      ensures clicks > 0 ==> answers == old(answers)[QuestionIds[old(currentQuestionIndex)] := answer]
      ensures clicks == 0 ==> answers == old(answers)
    {
      var n := 0;
      while n < clicks
        invariant 0 <= n <= clicks && Valid()
        invariant currentQuestionIndex == old(currentQuestionIndex)
        invariant pendingAdvances == n && pendingLogo == old(pendingLogo)
        invariant n > 0 ==> answers == old(answers)[QuestionIds[old(currentQuestionIndex)] := answer]
        invariant n == 0 ==> answers == old(answers)
      {
        HandleAnswer(answer);
        n := n + 1;
      }
      while pendingAdvances > 0
        invariant Valid() && pendingLogo == old(pendingLogo)
        invariant currentQuestionIndex + pendingAdvances == old(currentQuestionIndex) + clicks
        invariant clicks > 0 ==> answers == old(answers)[QuestionIds[old(currentQuestionIndex)] := answer]
        invariant clicks == 0 ==> answers == old(answers)
      {
        AdvanceTimerFires();
      }
    }

    /** The text question's input: typing overwrites the current question's answer only. */
    method EditTextAnswer(value: string)
      requires Valid() && ShowsQuestion()
      modifies this`answers
      ensures Valid()
      ensures answers == old(answers)[QuestionIds[currentQuestionIndex] := value]
    {
      answers := answers[QuestionIds[currentQuestionIndex] := value];
    }

    /**
     * `handleLogoUpload`: with a file, remember it; the file reader's
     * result (`readResult`, None if it never loads) becomes the logo when
     * it is a non-empty string. Without a file nothing changes.
     */
    method HandleLogoUpload(file: Option<File>, readResult: Option<string>)
      modifies this`logoFile, this`logoDataUrl
      ensures file.None? ==> logoFile == old(logoFile) && logoDataUrl == old(logoDataUrl)
      ensures file.Some? ==> logoFile == file
      ensures logoDataUrl == if file.Some? && Truthy(readResult) then readResult.value else old(logoDataUrl)
    {
      if file.Some? {
        logoFile := file;
        if Truthy(readResult) {
          logoDataUrl := readResult.value;
        }
      }
    }

    method GoToEmail()
      modifies this`currentPhase
      ensures currentPhase == Email
    {
      currentPhase := Email;
    }

    method SetEmail(value: string)
      modifies this`email
      ensures email == value
    {
      email := value;
    }

    /** `handleEmailSubmit`: only a valid address starts the preparation, from progress 0. */
    method HandleEmailSubmit()
      requires Valid()
      modifies this`currentPhase, this`progress
      ensures Valid()
      ensures IsValidEmail(email) ==> currentPhase == Preparing && progress == 0
      ensures !IsValidEmail(email) ==> currentPhase == old(currentPhase) && progress == old(progress)
    {
      if IsValidEmail(email) {
        currentPhase := Preparing;
        progress := 0;
      }
    }

    /** One tick of the progress interval; `stopped` says the interval was cleared. */
    method ProgressTick() returns (stopped: bool)
      requires Valid()
      modifies this`progress, this`currentPhase
      ensures Valid()
      ensures stopped <==> old(progress) == 100
      ensures stopped ==> progress == 100 && currentPhase == Result
      ensures !stopped ==> progress == old(progress) + 1 && currentPhase == old(currentPhase)
    {
      var t := ProgressStep(progress);
      progress := t.progress;
      stopped := t.stopped;
      if stopped {
        currentPhase := Result;
      }
    }

    /** Letting the interval run until it clears: 100 % and the result phase, after `101 - progress` ticks. */
    method RunPreparation() returns (ticks: nat)
      requires Valid()
      modifies this`progress, this`currentPhase
      ensures Valid()
      ensures progress == 100 && currentPhase == Result
      ensures ticks == 101 - old(progress)
    {
      ticks := 0;
      var stopped := false;
      while !stopped
        invariant Valid() && old(progress) <= progress
        invariant !stopped ==> ticks == progress - old(progress)
        invariant stopped ==> ticks == 101 - old(progress) && progress == 100 && currentPhase == Result
        decreases (if stopped then 0 else 1), 100 - progress
      {
        stopped := ProgressTick();
        ticks := ticks + 1;
      }
    }

    /** `handleLogoMouseDown`: remember where the pointer started and where the logo was. */
    method BeginDrag(clientX: real, clientY: real) returns (g: Gesture)
      ensures g.startX == clientX && g.startY == clientY && g.startPos == logoPosition
    {
      g := Gesture(clientX, clientY, logoPosition);
    }

    /** A mouse move during the gesture: the new position comes from the snapshot and this pointer position alone. */
    method DragMove(g: Gesture, clientX: real, clientY: real)
      requires Valid()
      modifies this`logoPosition
      ensures Valid()
      ensures logoPosition == DragPosition(g, clientX, clientY)
    {
      logoPosition := DragPosition(g, clientX, clientY);
    }

    /** The size slider (5..50). */
    method SetLogoSize(v: real)
      requires Valid() && MinLogoSize <= v <= MaxLogoSize
      modifies this`logoSize
      ensures Valid() && logoSize == v
    {
      logoSize := v;
    }

    /** The rotation slider (-180..180). */
    method SetLogoRotation(v: real)
      requires Valid() && MinRotation <= v <= MaxRotation
      modifies this`logoRotation
      ensures Valid() && logoRotation == v
    {
      logoRotation := v;
    }

    /** The colour input. */
    method SetMockupColor(c: string)
      modifies this`mockupColor
      ensures mockupColor == c
    {
      mockupColor := c;
    }

    /**
     * `downloadMockup`: a file is produced only when the preview is mounted,
     * a 2D context is available, a logo is set and its image decodes (the
     * download happens inside the image's onload). It is an 800 x 600
     * canvas filled with the mockup colour, with the logo drawn square,
     * its unrotated top-left corner at the mapped position.
     */
    method DownloadMockup(previewMounted: bool, contextAvailable: bool, imageDecodes: bool)
      returns (d: Option<Download>)
      requires Valid()
      ensures d.Some? <==> previewMounted && contextAvailable && logoDataUrl != "" && imageDecodes
      ensures d.Some? ==> d.value.fileName == "mockup.png" && d.value.background == mockupColor
                          && d.value.width == CanvasWidth && d.value.height == CanvasHeight
                          && d.value.logo == ExportDraw(logoPosition, logoSize, logoRotation)
      ensures d.Some? ==> 0.0 <= ExportBox(d.value.logo).left <= CanvasWidth
                          && 0.0 <= ExportBox(d.value.logo).top <= CanvasHeight
                          && 10.0 <= d.value.logo.width == d.value.logo.height <= 100.0
    {
      d := None;
      if previewMounted && contextAvailable && logoDataUrl != "" && imageDecodes {
        d := Some(Download("mockup.png", CanvasWidth, CanvasHeight, mockupColor,
                           ExportDraw(logoPosition, logoSize, logoRotation)));
      }
    }
  }

  /**
   * Two quick clicks on the fifth question skip the sixth and leave the
   * index at 6, past the last question, while the phase is still the
   * questions phase: the questions screen then reads `QUESTIONS[6]`.
   */
  method DoubleClickOnFifthQuestion() returns (w: Wizard)
    ensures w.currentPhase == Questions && w.currentQuestionIndex == |QuestionIds|
    ensures !w.ShowsQuestion()
  {
    w := new Wizard();
    w.StartQuestions();
    w.AnswerAndWait("a");
    w.AnswerAndWait("b");
    w.AnswerAndWait("c");
    w.AnswerAndWait("d");
    w.ClicksWithinDelay("e", 2);
  }
}

=== FILE: mockup_wizard_backup.dfy ===
/**
 * The single-page stepper, src/components/MockupWizard_backup.tsx: steps
 * 0 (questions), 1 (mockup), 2 (logo), 3 (export) moved with "next" and
 * "back"; arriving at step 1 applies the suggested colour and template.
 */
module MockupWizardBackup {
  import opened Common
  import opened Suggestions
  import opened LogoLayers

  /** The last step (export). */
  const LastStep: int := 3

  /** "next": `Math.min(s + 1, 3)`. */
  function NextStep(s: int): (r: int)
    requires 0 <= s <= LastStep
    ensures 0 <= r <= LastStep
    ensures s < LastStep ==> r == s + 1
    ensures s == LastStep ==> r == s
  {
    if s + 1 <= LastStep then s + 1 else LastStep
  }

  /** "back": `Math.max(s - 1, 0)`. */
  function BackStep(s: int): (r: int)
    requires 0 <= s <= LastStep
    ensures 0 <= r <= LastStep
    ensures s > 0 ==> r == s - 1
    ensures s == 0 ==> r == s
  {
    if s - 1 >= 0 then s - 1 else 0
  }

  /** "back" undoes "next" except on the last step, and "next" undoes "back" except on the first. */
  lemma NextBackInverse(s: int)
    requires 0 <= s <= LastStep
    ensures s < LastStep ==> BackStep(NextStep(s)) == s
    ensures s > 0 ==> NextStep(BackStep(s)) == s
    ensures NextStep(s) == s <==> s == LastStep
    ensures BackStep(s) == s <==> s == 0
  {
  }

  /** From any step, three "next" clicks reach the export step and three "back" clicks the questions. */
  lemma ThreeClicksReachEnds(s: int)
    requires 0 <= s <= LastStep
    ensures NextStep(NextStep(NextStep(s))) == LastStep
    ensures BackStep(BackStep(BackStep(s))) == 0
  {
  }

  class Wizard {
    var step: int
    var answers: map<string, string>
    var mockupColor: string
    var mockupType: Variant
    const logo: LogoLayer

    ghost predicate Valid()
      reads this, logo
    {
      0 <= step <= LastStep && logo.Valid()
    }

    constructor ()
      ensures Valid() && fresh(logo)
      ensures step == 0 && answers == map[] && mockupColor == "#3a6ea5" && mockupType == Pillow
      ensures logo.IsDefault()
    {
      step := 0;
      answers := map[];
      mockupColor := "#3a6ea5";
      mockupType := Pillow;
      logo := new LogoLayer();
    }

    /**
     * The effect keyed on the step, after the step changed: on step 1 the
     * suggestion computed from the current answers overwrites colour and
     * template.
     */
    method StepEffect()
      requires Valid()
      modifies this`mockupColor, this`mockupType
      ensures Valid()
      ensures step == 1 ==> mockupColor == Hex(SuggestDefaults(answers).color)
                            && mockupType == SuggestDefaults(answers).variant
      ensures step != 1 ==> mockupColor == old(mockupColor) && mockupType == old(mockupType)
    {
      if step == 1 {
        var s := SuggestDefaults(answers);
        mockupColor := Hex(s.color);
        mockupType := s.variant;
      }
    }

    /** The "next" button; the step effect runs only when the step actually changed. */
    method Next()
      requires Valid()
      modifies this`step, this`mockupColor, this`mockupType
      ensures Valid() && step == NextStep(old(step))
      ensures old(step) == 0 ==> mockupColor == Hex(SuggestDefaults(answers).color)
                                 && mockupType == SuggestDefaults(answers).variant
      ensures old(step) != 0 ==> mockupColor == old(mockupColor) && mockupType == old(mockupType)
    {
      var s := NextStep(step);
      if s != step {
        step := s;
        StepEffect();
      }
    }

    /** The "back" button; returning to step 1 from step 2 re-applies the suggestion. */
    method Back()
      requires Valid()
      modifies this`step, this`mockupColor, this`mockupType
      ensures Valid() && step == BackStep(old(step))
      ensures old(step) == 2 ==> mockupColor == Hex(SuggestDefaults(answers).color)
                                 && mockupType == SuggestDefaults(answers).variant
      ensures old(step) != 2 ==> mockupColor == old(mockupColor) && mockupType == old(mockupType)
    {
      var s := BackStep(step);
      if s != step {
        step := s;
        StepEffect();
      }
    }

    /** `handleAnswer(id, value)`: an option button or the notes input sets that one answer. */
    method HandleAnswer(id: string, value: string)
      requires Valid()
      modifies this`answers
      ensures Valid()
      ensures answers == old(answers)[id := value]
      ensures forall k :: k in old(answers) && k != id ==> k in answers && answers[k] == old(answers)[k]
    {
      answers := answers[id := value];
    }

    /**
     * `onLogoChange`: `url` is the data URL read from the picked file, or
     * None when no file was picked (nothing changes then).
     */
    method OnLogoChange(url: Option<string>)
      requires Valid()
      modifies logo`dataUrl
      ensures Valid()
      ensures url.None? ==> logo.dataUrl == old(logo.dataUrl)
      ensures url.Some? ==> logo.dataUrl == url
    {
      if url.Some? {
        logo.Load(url.value);
      }
    }

    /** `resetLogo`. */
    method ResetLogo()
      requires Valid()
      modifies logo
      ensures Valid() && logo.IsDefault()
    {
      logo.Reset();
    }

    /** The hex input, the colour picker and the palette buttons. */
    method SetMockupColor(c: string)
      requires Valid()
      modifies this`mockupColor
      ensures Valid() && mockupColor == c
    {
      mockupColor := c;
    }

    /** The template select. */
    method SetMockupType(v: Variant)
      requires Valid()
      modifies this`mockupType
      ensures Valid() && mockupType == v
    {
      mockupType := v;
    }

    /** The drawing shown for the current template. */
    function CurrentTemplate(): (t: Template)
      reads this
      ensures t == PillowPack <==> mockupType == Pillow
    {
      ChooseTemplate(mockupType)
    }
  }
}

=== FILE: mockup_wizard_old.dfy ===
/**
 * The earlier animated wizard, src/components/MockupWizardold.tsx: four
 * questions whose answers pick a suggested colour and template, a logo
 * upload, a simulated "preparing" progress bar and the mockup editor
 * (react-rnd logo box, colour, template, opacity, rotation, blending).
 */
module MockupWizardOld {
  import opened Common
  import opened Flow
  import opened Suggestions
  import opened LogoLayers

  datatype Phase = Welcome | Questions | LogoUpload | Preparing | MockupEditor

  /** The ids of the four questions, in order. */
  const QuestionIds: seq<string> := ["product", "style", "mood", "notes"]

  class Wizard {
    var phase: Phase
    var currentQuestionIndex: nat
    var answers: map<string, string>
    var progress: int
    var mockupColor: string
    var mockupType: Variant
    const logo: LogoLayer

    ghost predicate Valid()
      reads this, logo
    {
      currentQuestionIndex < |QuestionIds| && 0 <= progress <= 100 && logo.Valid()
    }

    constructor ()
      ensures Valid() && fresh(logo)
      ensures phase == Welcome && currentQuestionIndex == 0 && answers == map[] && progress == 0
      ensures mockupColor == "#3a6ea5" && mockupType == Pillow && logo.IsDefault()
    {
      phase := Welcome;
      currentQuestionIndex := 0;
      answers := map[];
      progress := 0;
      mockupColor := "#3a6ea5";
      mockupType := Pillow;
      logo := new LogoLayer();
    }

    method StartQuestions()
      requires Valid()
      modifies this`phase
      ensures Valid() && phase == Questions
    {
      phase := Questions;
    }

    /**
     * `handleAnswer`: store the answer under the current question's id; on
     * any but the last question move on; on the last one apply the
     * suggestion computed from the completed answers and go to the logo phase.
     */
    method HandleAnswer(value: string)
      requires Valid()
      modifies this`answers, this`currentQuestionIndex, this`mockupColor, this`mockupType, this`phase
      ensures Valid()
      ensures answers == old(answers)[QuestionIds[old(currentQuestionIndex)] := value]
      ensures old(currentQuestionIndex) < |QuestionIds| - 1 ==>
                && currentQuestionIndex == old(currentQuestionIndex) + 1
                && phase == old(phase) && mockupColor == old(mockupColor) && mockupType == old(mockupType)
      ensures old(currentQuestionIndex) == |QuestionIds| - 1 ==>
                && currentQuestionIndex == old(currentQuestionIndex) && phase == LogoUpload
                && mockupColor == Hex(SuggestDefaults(answers).color)
                && mockupType == SuggestDefaults(answers).variant
    {
      var id := QuestionIds[currentQuestionIndex];
      var completed := answers[id := value];
      answers := completed;
      match AnswerStep(currentQuestionIndex, |QuestionIds|)
      case QuestionsDone =>
        var suggestion := SuggestDefaults(completed);
        mockupColor := Hex(suggestion.color);
        mockupType := suggestion.variant;
        phase := LogoUpload;
      case NextQuestion(next) =>
        currentQuestionIndex := next;
    }

    /** The notes input: typing overwrites the current question's answer only. */
    method EditTextAnswer(value: string)
      requires Valid()
      modifies this`answers
      ensures Valid()
      ensures answers == old(answers)[QuestionIds[currentQuestionIndex] := value]
    {
      answers := answers[QuestionIds[currentQuestionIndex] := value];
    }

    /**
     * The auto-centre effect, run whenever phase or logo changed: in the
     * mockup phase with a logo present, the logo goes back to (310, 105).
     */
    method AutoCentre()
      requires Valid()
      modifies logo`pos
      ensures Valid()
      ensures phase == MockupEditor && logo.Present() ==> logo.pos == DefaultPos
      ensures !(phase == MockupEditor && logo.Present()) ==> logo.pos == old(logo.pos)
    {
      if phase == MockupEditor && logo.Present() {
        logo.Centre();
      }
    }

    /**
     * `onLogoChange`: `url` is what reading the picked file produced (None
     * without a file or when reading fails); it becomes the logo, and the
     * auto-centre effect runs if the logo changed.
     */
    method OnLogoChange(url: Option<string>)
      requires Valid()
      modifies logo`dataUrl, logo`pos
      ensures Valid()
      ensures url.None? ==> logo.dataUrl == old(logo.dataUrl) && logo.pos == old(logo.pos)
      ensures url.Some? ==> logo.dataUrl == url
      ensures url.Some? && phase == MockupEditor && logo.Present() && url != old(logo.dataUrl) ==>
                logo.pos == DefaultPos
      ensures !(url.Some? && phase == MockupEditor && logo.Present() && url != old(logo.dataUrl)) ==>
                logo.pos == old(logo.pos)
    {
      if url.Some? {
        var changed := url != logo.dataUrl;
        logo.Load(url.value);
        if changed {
          AutoCentre();
        }
      }
    }

    /** `startMockupPreparation`: the preparing phase, from progress 0. */
    method StartMockupPreparation()
      requires Valid()
      modifies this`phase, this`progress
      ensures Valid() && phase == Preparing && progress == 0
    {
      phase := Preparing;
      progress := 0;
    }

    /**
     * One tick of the progress interval; on the stopping tick the phase
     * becomes "mockup" and, if that changed the phase, the auto-centre
     * effect runs.
     */
    method ProgressTick() returns (stopped: bool)
      requires Valid()
      modifies this`progress, this`phase, logo`pos
      ensures Valid()
      ensures stopped <==> old(progress) == 100
      ensures stopped ==> progress == 100 && phase == MockupEditor
      ensures stopped && old(phase) != MockupEditor && logo.Present() ==> logo.pos == DefaultPos
      ensures !(stopped && old(phase) != MockupEditor && logo.Present()) ==> logo.pos == old(logo.pos)
      ensures !stopped ==> progress == old(progress) + 1 && phase == old(phase) && logo.pos == old(logo.pos)
    {
      var t := ProgressStep(progress);
      progress := t.progress;
      stopped := t.stopped;
      if stopped {
        var changed := phase != MockupEditor;
        phase := MockupEditor;
        if changed {
          AutoCentre();
        }
      }
    }

    /**
     * Letting the preparation run to the end: 100 %, the mockup phase, and a
     * present logo centred at (310, 105), after `101 - progress` ticks.
     */
    method RunPreparation() returns (ticks: nat)
      requires Valid() && phase == Preparing
      modifies this`progress, this`phase, logo`pos
      ensures Valid() && progress == 100 && phase == MockupEditor
      ensures logo.Present() ==> logo.pos == DefaultPos
      ensures !logo.Present() ==> logo.pos == old(logo.pos)
      ensures ticks == 101 - old(progress)
    {
      ticks := 0;
      var stopped := false;
      while !stopped
        invariant Valid() && old(progress) <= progress
        invariant logo.dataUrl == old(logo.dataUrl)
        invariant !stopped ==> ticks == progress - old(progress) && phase == Preparing
        invariant stopped ==> ticks == 101 - old(progress) && progress == 100 && phase == MockupEditor
        invariant stopped && logo.Present() ==> logo.pos == DefaultPos
        invariant !logo.Present() ==> logo.pos == old(logo.pos)
        decreases (if stopped then 0 else 1), 100 - progress
      {
        stopped := ProgressTick();
        ticks := ticks + 1;
      }
    }

    /** `resetLogo`. */
    method ResetLogo()
      requires Valid()
      modifies logo
      ensures Valid() && logo.IsDefault()
    {
      logo.Reset();
    }

    /** The colour picker and the palette buttons. */
    method SetMockupColor(c: string)
      requires Valid()
      modifies this`mockupColor
      ensures Valid() && mockupColor == c
    {
      mockupColor := c;
    }

    /** The template select. */
    method SetMockupType(v: Variant)
      requires Valid()
      modifies this`mockupType
      ensures Valid() && mockupType == v
    {
      mockupType := v;
    }

    /** The drawing shown for the current template. */
    function CurrentTemplate(): (t: Template)
      reads this
      ensures t == PillowPack <==> mockupType == Pillow
    {
      ChooseTemplate(mockupType)
    }
  }
}

=== FILE: placement.dfy ===
/**
 * Logo placement arithmetic of the current wizard (MockupWizard.tsx): the
 * logo position is kept in percent of the mockup container; a drag turns
 * pointer pixels into percent with fixed 400 x 300 px divisors and clamps
 * to [0, 100]; the export maps percent onto an 800 x 600 canvas and draws
 * a square logo whose side is `size` percent of 200 px. Numbers are exact
 * reals here, not IEEE doubles.
 */
module Placement {

  /** A position in percent of the container (x of its width, y of its height). */
  datatype Point = Point(x: real, y: real)

  predicate InRange(p: Point) {
    0.0 <= p.x <= 100.0 && 0.0 <= p.y <= 100.0
  }

  function Min(a: real, b: real): real { if a <= b then a else b }
  function Max(a: real, b: real): real { if a >= b then a else b }

  /** `Math.max(0, Math.min(100, v))`. */
  function Clamp(v: real): (r: real)
    ensures 0.0 <= r <= 100.0
    ensures 0.0 <= v <= 100.0 ==> r == v
    ensures v <= 0.0 ==> r == 0.0
    ensures v >= 100.0 ==> r == 100.0
  {
    Max(0.0, Min(100.0, v))
  }

  /** Clamping a clamped value changes nothing. */
  lemma ClampIdempotent(v: real)
    ensures Clamp(Clamp(v)) == Clamp(v)
  {
  }

  /** Pixels to percent of an extent: `(px / extent) * 100`. */
  function ToPercent(px: real, extent: real): real
    requires extent != 0.0
  {
    px / extent * 100.0
  }

  /** Percent of an extent to pixels: `(pct / 100) * extent`. */
  function ToPixels(pct: real, extent: real): real {
    pct / 100.0 * extent
  }

  /** The two conversions are inverse to each other on any non-zero extent. */
  lemma PercentPixelsRoundTrip(pct: real, px: real, extent: real)
    requires extent != 0.0
    ensures ToPercent(ToPixels(pct, extent), extent) == pct
    ensures ToPixels(ToPercent(px, extent), extent) == px
  {
  }

  /** The container size the drag handler assumes, in px (literal constants in the source). */
  const AssumedWidth: real := 400.0
  const AssumedHeight: real := 300.0

  /** What `handleLogoMouseDown` captures: pointer start and a snapshot of the position. */
  datatype Gesture = Gesture(startX: real, startY: real, startPos: Point)

  /**
   * The position set on a mouse move during a gesture: the pointer delta
   * since the gesture started, in percent of the assumed container, added
   * to the snapshot and clamped per axis. It depends on the gesture and the
   * current pointer only, never on positions set by earlier moves.
   */
  function DragPosition(g: Gesture, clientX: real, clientY: real): (p: Point)
    ensures InRange(p)
    ensures p.x == Clamp(g.startPos.x + (clientX - g.startX) / 4.0)
    ensures p.y == Clamp(g.startPos.y + (clientY - g.startY) / 3.0)
  {
    Point(Clamp(g.startPos.x + ToPercent(clientX - g.startX, AssumedWidth)),
          Clamp(g.startPos.y + ToPercent(clientY - g.startY, AssumedHeight)))
  }

  /** A move back to the start point restores an in-range snapshot exactly. */
  lemma DragZeroDelta(g: Gesture)
    requires InRange(g.startPos)
    ensures DragPosition(g, g.startX, g.startY) == g.startPos
  {
  }

  /** Inside the bounds every 4 px of horizontal and 3 px of vertical pointer travel move the logo one percentage point. */
  lemma DragFollowsPointer(g: Gesture, clientX: real, clientY: real)
    requires InRange(Point(g.startPos.x + (clientX - g.startX) / 4.0, g.startPos.y + (clientY - g.startY) / 3.0))
    ensures DragPosition(g, clientX, clientY).x - g.startPos.x == (clientX - g.startX) / 4.0
    ensures DragPosition(g, clientX, clientY).y - g.startPos.y == (clientY - g.startY) / 3.0
  {
  }

  /** A pointer dragged past an edge pins the logo to exactly 0 or 100, and it stays there. */
  lemma DragPastEdge(g: Gesture, clientX: real, clientY: real)
    ensures clientX - g.startX >= 4.0 * (100.0 - g.startPos.x) ==> DragPosition(g, clientX, clientY).x == 100.0
    ensures clientX - g.startX <= -4.0 * g.startPos.x ==> DragPosition(g, clientX, clientY).x == 0.0
    ensures clientY - g.startY >= 3.0 * (100.0 - g.startPos.y) ==> DragPosition(g, clientX, clientY).y == 100.0
    ensures clientY - g.startY <= -3.0 * g.startPos.y ==> DragPosition(g, clientX, clientY).y == 0.0
    ensures Clamp(DragPosition(g, clientX, clientY).x) == DragPosition(g, clientX, clientY).x
  {
  }

  /** The preview container is `h-80`, 320 px high; the handler divides by 300. */
  const PreviewHeight: real := 320.0

  /**
   * Because of the fixed divisor, a drag from the top edge reaches the
   * bottom edge after 300 px: over the last 20 px of the 320 px preview
   * the pointer moves and the logo does not.
   */
  lemma VerticalDragOutrunsPointer(g: Gesture, clientX: real, d: real)
    requires g.startPos.y == 0.0 && 300.0 <= d <= PreviewHeight
    ensures DragPosition(g, clientX, g.startY + d).y == 100.0
  {
  }

  /** The export canvas and the logo-size basis, in px. */
  const CanvasWidth: real := 800.0
  const CanvasHeight: real := 600.0
  const SizeBasis: real := 200.0

  /**
   * The export drawing commands: translate to (translateX, translateY),
   * rotate by `rotation` degrees, draw the image into the box at
   * (drawX, drawY) of `width` x `height`.
   */
  datatype LogoDraw = LogoDraw(translateX: real, translateY: real, rotation: real,
                               drawX: real, drawY: real, width: real, height: real)

  /**
   * `logoX = x/100*800`, `logoY = y/100*600`, `logoW = logoH = size/100*200`,
   * translate to `(logoX + logoW/2, logoY + logoH/2)` and draw at
   * `(-logoW/2, -logoH/2)`. Before rotation the box is square and its
   * top-left corner, not its centre, lands on the mapped position.
   */
  function ExportDraw(pos: Point, size: real, rotation: real): (d: LogoDraw)
    ensures d.width == d.height == ToPixels(size, SizeBasis)
    ensures d.drawX == -d.width / 2.0 && d.drawY == -d.height / 2.0
    ensures d.translateX + d.drawX == ToPixels(pos.x, CanvasWidth)
    ensures d.translateY + d.drawY == ToPixels(pos.y, CanvasHeight)
    ensures InRange(pos) ==> 0.0 <= d.translateX + d.drawX <= CanvasWidth && 0.0 <= d.translateY + d.drawY <= CanvasHeight
    ensures d.rotation == rotation
  {
    var logoX := ToPixels(pos.x, CanvasWidth);
    var logoY := ToPixels(pos.y, CanvasHeight);
    var logoW := ToPixels(size, SizeBasis);
    var logoH := ToPixels(size, SizeBasis);
    LogoDraw(logoX + logoW / 2.0, logoY + logoH / 2.0, rotation, -logoW / 2.0, -logoH / 2.0, logoW, logoH)
  }

  /** An axis-aligned box: left, top, width, height (before rotation about its centre). */
  datatype Box = Box(left: real, top: real, width: real, height: real)

  function CentreX(b: Box): real { b.left + b.width / 2.0 }
  function CentreY(b: Box): real { b.top + b.height / 2.0 }

  /**
   * The live preview of the logo in a container of `w` x `h` px: `left: x%`,
   * `top: y%`, `width` and `height` of `size%` of the container's width and
   * height, then `translate(-50%, -50%)`.
   */
  function PreviewBox(pos: Point, size: real, w: real, h: real): (b: Box)
    ensures CentreX(b) == ToPixels(pos.x, w) && CentreY(b) == ToPixels(pos.y, h)
    ensures b.width == ToPixels(size, w) && b.height == ToPixels(size, h)
  {
    var width := ToPixels(size, w);
    var height := ToPixels(size, h);
    Box(ToPixels(pos.x, w) - width / 2.0, ToPixels(pos.y, h) - height / 2.0, width, height)
  }

  /** The exported logo box on the canvas, before rotation. */
  function ExportBox(d: LogoDraw): Box {
    Box(d.translateX + d.drawX, d.translateY + d.drawY, d.width, d.height)
  }

  /**
   * Preview and export disagree: the preview centres the logo on the
   * position, the export centres it `size` px right of and below it, so
   * the relative centre drifts by size/800 horizontally and size/600
   * vertically. Only a zero size would make the two agree.
   */
  lemma ExportCentreDrift(pos: Point, size: real, rotation: real, w: real, h: real)
    requires w > 0.0 && h > 0.0
    ensures var e := ExportBox(ExportDraw(pos, size, rotation));
            CentreX(e) == ToPixels(pos.x, CanvasWidth) + size
            && CentreY(e) == ToPixels(pos.y, CanvasHeight) + size
    ensures var e := ExportBox(ExportDraw(pos, size, rotation));
            var p := PreviewBox(pos, size, w, h);
            CentreX(e) / CanvasWidth - CentreX(p) / w == size / CanvasWidth
            && CentreY(e) / CanvasHeight - CentreY(p) / h == size / CanvasHeight
  {
    var e := ExportBox(ExportDraw(pos, size, rotation));
    var p := PreviewBox(pos, size, w, h);
    assert CentreX(p) / w == pos.x / 100.0;
    assert CentreY(p) / h == pos.y / 100.0;
    assert CentreX(e) / CanvasWidth == pos.x / 100.0 + size / CanvasWidth;
    assert CentreY(e) / CanvasHeight == pos.y / 100.0 + size / CanvasHeight;
  }

  /** The default placement (50 %, 50 %, size 20) exports centred on (420, 320), not on the canvas centre (400, 300). */
  lemma DefaultExportOffCentre()
    ensures var e := ExportBox(ExportDraw(Point(50.0, 50.0), 20.0, 0.0));
            CentreX(e) == 420.0 && CentreY(e) == 320.0
  {
  }

  /**
   * The export draws the square from the mapped point towards the right
   * and down, so near the right or bottom edge part of the logo falls off
   * the canvas, and at 100 % all of it does (the preview still shows the
   * quarter of it centred on the corner).
   */
  lemma EdgeExportOffCanvas(pos: Point, size: real, rotation: real)
    requires InRange(pos) && 5.0 <= size <= 50.0
    ensures var e := ExportBox(ExportDraw(pos, size, rotation));
            e.width == 2.0 * size && e.height == 2.0 * size
            && (e.left + e.width > CanvasWidth <==> pos.x > 100.0 - size / 4.0)
            && (e.top + e.height > CanvasHeight <==> pos.y > 100.0 - size / 3.0)
    ensures var e := ExportBox(ExportDraw(pos, size, rotation));
            (pos.x == 100.0 ==> e.left == CanvasWidth) && (pos.y == 100.0 ==> e.top == CanvasHeight)
  {
  }
}

=== FILE: suggestions.dfy ===
/**
 * The rule table that turns the questionnaire answers into a suggested
 * package colour and template variant (`suggestDefaults`, defined
 * identically in MockupWizardold.tsx and MockupWizard_backup.tsx), and the
 * choice of template drawing from the variant.
 */
module Suggestions {
  import opened Text

  /** The package templates: a rolled flow pack or a flat pack. */
  datatype Variant = Pillow | Flat

  /** The colours the rule table can produce. */
  datatype Swatch = DefaultBlue | FreshBlue | NaturalGreen | EnergeticOrange | PremiumNavy

  /** The hex string the component stores for a swatch. */
  function Hex(c: Swatch): string {
    match c
    case DefaultBlue => "#3a6ea5"
    case FreshBlue => "#3A83C1"
    case NaturalGreen => "#4DAA57"
    case EnergeticOrange => "#E86A33"
    case PremiumNavy => "#0F172A"
  }

  datatype Suggestion = Suggestion(color: Swatch, variant: Variant)

  /** `(answers[key] || "").toLowerCase()`: a missing answer reads as "". */
  function Lowered(answers: map<string, string>, key: string): string {
    ToLower(if key in answers then answers[key] else "")
  }

  function Mood(answers: map<string, string>): string { Lowered(answers, "mood") }
  function Style(answers: map<string, string>): string { Lowered(answers, "style") }
  function Product(answers: map<string, string>): string { Lowered(answers, "product") }

  /** The four mood rules, each on the lower-cased answers. */
  predicate FreshRule(answers: map<string, string>) {
    Includes(Mood(answers), "ferah") || Includes(Product(answers), "ıslak")
  }
  predicate NaturalRule(answers: map<string, string>) { Includes(Mood(answers), "doğal") }
  predicate EnergeticRule(answers: map<string, string>) { Includes(Mood(answers), "enerjik") }
  predicate PremiumRule(answers: map<string, string>) { Includes(Mood(answers), "premium") }

  /**
   * `suggestDefaults`: start from #3a6ea5 / pillow and let each matching
   * rule overwrite the colour in turn (fresh, natural, energetic, premium),
   * then "minimal" sets flat and "klasik" sets pillow again. The contract
   * states the outcome as "the last matching rule wins".
   */
  function SuggestDefaults(answers: map<string, string>): (s: Suggestion)
    ensures s.color == PremiumNavy <==> PremiumRule(answers)
    ensures s.color == EnergeticOrange <==> EnergeticRule(answers) && !PremiumRule(answers)
    ensures s.color == NaturalGreen <==>
      NaturalRule(answers) && !EnergeticRule(answers) && !PremiumRule(answers)
    ensures s.color == FreshBlue <==>
      FreshRule(answers) && !NaturalRule(answers) && !EnergeticRule(answers) && !PremiumRule(answers)
    ensures s.color == DefaultBlue <==>
      !FreshRule(answers) && !NaturalRule(answers) && !EnergeticRule(answers) && !PremiumRule(answers)
    ensures s.variant == Flat <==> Includes(Style(answers), "minimal") && !Includes(Style(answers), "klasik")
  {
    var color0 := DefaultBlue;
    var color1 := if FreshRule(answers) then FreshBlue else color0;
    var color2 := if NaturalRule(answers) then NaturalGreen else color1;
    var color3 := if EnergeticRule(answers) then EnergeticOrange else color2;
    var color4 := if PremiumRule(answers) then PremiumNavy else color3;
    var variant0 := Pillow;
    var variant1 := if Includes(Style(answers), "minimal") then Flat else variant0;
    var variant2 := if Includes(Style(answers), "klasik") then Pillow else variant1;
    Suggestion(color4, variant2)
  }

  /** With no answers at all (every answer reads as ""), the result is the default #3a6ea5 / pillow. */
  lemma NoAnswersGiveDefaults()
    ensures SuggestDefaults(map[]) == Suggestion(DefaultBlue, Pillow)
  {
    var none: map<string, string> := map[];
    assert Mood(none) == [] && Style(none) == [] && Product(none) == [];
  }

  /** The drawing shown for the mockup. */
  datatype Template = PillowPack | FlatPack

  /** `mockupType === "pillow" ? PillowPack : FlatPack`. */
  function ChooseTemplate(v: Variant): (t: Template)
    ensures t.PillowPack? <==> v.Pillow?
    ensures t.FlatPack? <==> v.Flat?
  {
    if v == Pillow then PillowPack else FlatPack
  }

  // ---- The listed answer options ----

  const ProductOptions: seq<string> := ["Rulo Islak Havlu", "Peçete", "Islak Mendil", "Özel (Diğer)"]
  const StyleOptions: seq<string> := ["Minimal", "Modern", "Klasik", "Sportif"]
  const MoodOptions: seq<string> := ["Taze & Ferah", "Doğal & Sade", "Enerjik", "Premium"]

  /** Dotless 'ı' must be present for "ıslak" to be found. */
  lemma DotlessSearchNeedsDotless(t: string)
    requires Includes(t, "ıslak")
    ensures 'ı' in t
  {
    IncludesCharOf(t, "ıslak", 0);
  }

  /**
   * `"Islak".toLowerCase()` is "islak" with a dotted i, so the product rule
   * (which searches for "ıslak" with a dotless ı) never fires for any
   * listed product option.
   */
  lemma ProductRuleNeverFiresForListedOptions(answers: map<string, string>)
    requires "product" in answers && answers["product"] in ProductOptions
    ensures !Includes(Product(answers), "ıslak")
  {
    var p := answers["product"];
    assert 'ı' !in p;
    ToLowerNoDotlessI(p);
    if Includes(Product(answers), "ıslak") {
      DotlessSearchNeedsDotless(Product(answers));
    }
  }

  /** Concrete consequence: a "Rulo Islak Havlu" product alone gets the default colour. */
  lemma IslakProductKeepsDefaultColour()
    ensures SuggestDefaults(map["product" := "Rulo Islak Havlu"]).color == DefaultBlue
  {
    var answers := map["product" := "Rulo Islak Havlu"];
    ProductRuleNeverFiresForListedOptions(answers);
    assert "mood" !in answers;
    assert Mood(answers) == [];
  }

  // The positive keyword matches of the listed moods and styles.

  lemma FreshMoodMatches() ensures Includes(ToLower("Taze & Ferah"), "ferah") {
    OccursAfterLower("Taze & Ferah", "ferah", 7);
  }
  lemma NaturalMoodMatches() ensures Includes(ToLower("Doğal & Sade"), "doğal") {
    OccursAfterLower("Doğal & Sade", "doğal", 0);
  }
  lemma EnergeticMoodMatches() ensures Includes(ToLower("Enerjik"), "enerjik") {
    OccursAfterLower("Enerjik", "enerjik", 0);
  }
  lemma PremiumMoodMatches() ensures Includes(ToLower("Premium"), "premium") {
    OccursAfterLower("Premium", "premium", 0);
  }
  lemma MinimalStyleMatches() ensures Includes(ToLower("Minimal"), "minimal") {
    OccursAfterLower("Minimal", "minimal", 0);
  }
  lemma ClassicStyleMatches() ensures Includes(ToLower("Klasik"), "klasik") {
    OccursAfterLower("Klasik", "klasik", 0);
  }

  /** Without a matching product, the colour is decided by the mood alone. */
  lemma ColourFromMood(answers: map<string, string>)
    requires "product" !in answers || answers["product"] in ProductOptions
    ensures FreshRule(answers) <==> Includes(Mood(answers), "ferah")
  {
    if "product" in answers {
      ProductRuleNeverFiresForListedOptions(answers);
    } else {
      assert Product(answers) == [];
    }
  }

  // The keywords the listed options do not contain (one literal per lemma keeps each proof small).

  lemma FreshMoodMisses()
    ensures !Includes(ToLower("Taze & Ferah"), "doğal")
    ensures !Includes(ToLower("Taze & Ferah"), "enerjik")
    ensures !Includes(ToLower("Taze & Ferah"), "premium")
  {
    FreshMoodMissesNatural();
    FreshMoodMissesEnergetic();
    FreshMoodMissesPremium();
  }
  lemma FreshMoodMissesNatural() ensures !Includes(ToLower("Taze & Ferah"), "doğal") {
    KeywordAbsent("Taze & Ferah", "doğal", 2);
  }
  lemma FreshMoodMissesEnergetic() ensures !Includes(ToLower("Taze & Ferah"), "enerjik") {
    KeywordAbsent("Taze & Ferah", "enerjik", 4);
  }
  lemma FreshMoodMissesPremium() ensures !Includes(ToLower("Taze & Ferah"), "premium") {
    KeywordAbsent("Taze & Ferah", "premium", 0);
  }
  lemma NaturalMoodMissesEnergetic() ensures !Includes(ToLower("Doğal & Sade"), "enerjik") {
    KeywordAbsent("Doğal & Sade", "enerjik", 4);
  }
  lemma NaturalMoodMissesPremium() ensures !Includes(ToLower("Doğal & Sade"), "premium") {
    KeywordAbsent("Doğal & Sade", "premium", 0);
  }
  lemma EnergeticMoodMissesPremium() ensures !Includes(ToLower("Enerjik"), "premium") {
    KeywordAbsent("Enerjik", "premium", 0);
  }
  lemma MinimalStyleMissesClassic() ensures !Includes(ToLower("Minimal"), "klasik") {
    KeywordAbsent("Minimal", "klasik", 0);
  }
  lemma ModernStyleMissesMinimal() ensures !Includes(ToLower("Modern"), "minimal") {
    KeywordAbsent("Modern", "minimal", 5);
  }
  lemma SportyStyleMissesMinimal() ensures !Includes(ToLower("Sportif"), "minimal") {
    KeywordAbsent("Sportif", "minimal", 6);
  }

  /** "Taze & Ferah" gives #3A83C1. */
  lemma FreshMoodColour(answers: map<string, string>)
    requires "mood" in answers && answers["mood"] == "Taze & Ferah"
    requires "product" !in answers || answers["product"] in ProductOptions
    ensures SuggestDefaults(answers).color == FreshBlue
  {
    ColourFromMood(answers);
    FreshMoodMatches();
    FreshMoodMisses();
  }

  /** "Doğal & Sade" gives #4DAA57. */
  lemma NaturalMoodColour(answers: map<string, string>)
    requires "mood" in answers && answers["mood"] == "Doğal & Sade"
    ensures SuggestDefaults(answers).color == NaturalGreen
  {
    NaturalMoodMatches();
    NaturalMoodMissesEnergetic();
    NaturalMoodMissesPremium();
  }

  /** "Enerjik" gives #E86A33. */
  lemma EnergeticMoodColour(answers: map<string, string>)
    requires "mood" in answers && answers["mood"] == "Enerjik"
    ensures SuggestDefaults(answers).color == EnergeticOrange
  {
    EnergeticMoodMatches();
    EnergeticMoodMissesPremium();
  }

  /** "Premium" gives #0F172A. */
  lemma PremiumMoodColour(answers: map<string, string>)
    requires "mood" in answers && answers["mood"] == "Premium"
    ensures SuggestDefaults(answers).color == PremiumNavy
  {
    PremiumMoodMatches();
  }

  /** Of the listed styles only "Minimal" gives the flat pack. */
  lemma StyleOptionVariant(answers: map<string, string>, k: nat)
    requires k < |StyleOptions| && "style" in answers && answers["style"] == StyleOptions[k]
    ensures SuggestDefaults(answers).variant == [Flat, Pillow, Pillow, Pillow][k]
  {
    if k == 0 {
      MinimalStyleMatches();
      MinimalStyleMissesClassic();
    } else if k == 1 {
      ModernStyleMissesMinimal();
    } else if k == 2 {
      ClassicStyleMatches();
    } else {
      SportyStyleMissesMinimal();
    }
  }
}

=== FILE: test_mockup_wizard.dfy ===
/**
 * The trimmed wizard under test/src/components/MockupWizard.tsx: welcome,
 * six questions, a logo picker and a result screen, with a theme switch.
 */
module TestMockupWizard {
  import opened Common
  import opened Flow

  datatype Phase = Welcome | Questions | LogoUpload | Result

  /** The ids of the six questions, in order. */
  const QuestionIds: seq<int> := [1, 2, 3, 4, 5, 6]

  class Wizard {
    var isDark: bool
    var currentPhase: Phase
    var currentQuestionIndex: nat
    var answers: map<int, string>
    /** `setTimeout` callbacks scheduled by answers and not yet run: index advances, and moves to the logo phase. */
    var pendingAdvances: nat
    var pendingLogo: nat
    var logoFile: Option<File>

    /**
     * Whether the index names a question. The questions screen renders
     * `QUESTIONS[currentQuestionIndex]`, which throws past the last one.
     */
    predicate ShowsQuestion()
      reads this
    {
      currentQuestionIndex < |QuestionIds|
    }

    constructor ()
      ensures ShowsQuestion() && pendingAdvances == 0 && pendingLogo == 0
      ensures !isDark && currentPhase == Welcome && currentQuestionIndex == 0
      ensures answers == map[] && logoFile == None
    {
      isDark := false;
      currentPhase := Welcome;
      currentQuestionIndex := 0;
      answers := map[];
      pendingAdvances := 0;
      pendingLogo := 0;
      logoFile := None;
    }

    method ToggleTheme()
      modifies this`isDark
      ensures isDark == !old(isDark)
    {
      isDark := !isDark;
    }

    /** Two clicks on the theme switch bring the original theme back. */
    method ToggleThemeTwice()
      modifies this`isDark
      ensures isDark == old(isDark)
    {
      ToggleTheme();
      ToggleTheme();
    }

    method StartQuestions()
      modifies this`currentPhase
      ensures currentPhase == Questions
    {
      currentPhase := Questions;
    }

    /**
     * `handleAnswer`: store the answer under the shown question's id, then
     * schedule, 300 ms later, either one more question (before the last
     * one) or the move to the logo phase. The index itself does not change
     * yet, so the same question stays clickable until the timer runs.
     */
    method HandleAnswer(answer: string)
      requires ShowsQuestion()
      modifies this`answers, this`pendingAdvances, this`pendingLogo
      ensures answers == old(answers)[QuestionIds[currentQuestionIndex] := answer]
      ensures currentQuestionIndex < |QuestionIds| - 1 ==>
                pendingAdvances == old(pendingAdvances) + 1 && pendingLogo == old(pendingLogo)
      ensures currentQuestionIndex == |QuestionIds| - 1 ==>
                pendingLogo == old(pendingLogo) + 1 && pendingAdvances == old(pendingAdvances)
    {
      answers := answers[QuestionIds[currentQuestionIndex] := answer];
      match AnswerStep(currentQuestionIndex, |QuestionIds|)
      case NextQuestion(_) => pendingAdvances := pendingAdvances + 1;
      case QuestionsDone => pendingLogo := pendingLogo + 1;
    }

    /** A scheduled advance runs: `prev => prev + 1` on whatever the index is by then. */
    method AdvanceTimerFires()
      requires pendingAdvances > 0
      modifies this`currentQuestionIndex, this`pendingAdvances
      ensures currentQuestionIndex == old(currentQuestionIndex) + 1
      ensures pendingAdvances == old(pendingAdvances) - 1
    {
      currentQuestionIndex := currentQuestionIndex + 1;
      pendingAdvances := pendingAdvances - 1;
    }

    /** A scheduled move to the logo phase runs. */
    method LogoTimerFires()
      requires pendingLogo > 0
      modifies this`currentPhase, this`pendingLogo
      ensures currentPhase == LogoUpload && pendingLogo == old(pendingLogo) - 1
    {
      currentPhase := LogoUpload;
      pendingLogo := pendingLogo - 1;
    }

    /**
     * One answer with no timer pending, followed by its timer: the next
     * question is shown, or after the last one the phase becomes logo;
     * the index never leaves the questions.
     */
    method AnswerAndWait(answer: string)
      requires ShowsQuestion() && pendingAdvances == 0 && pendingLogo == 0
      modifies this`answers, this`pendingAdvances, this`pendingLogo, this`currentQuestionIndex, this`currentPhase
      ensures ShowsQuestion() && pendingAdvances == 0 && pendingLogo == 0
      ensures answers == old(answers)[QuestionIds[old(currentQuestionIndex)] := answer]
      ensures old(currentQuestionIndex) < |QuestionIds| - 1 ==>
                currentQuestionIndex == old(currentQuestionIndex) + 1 && currentPhase == old(currentPhase)
      ensures old(currentQuestionIndex) == |QuestionIds| - 1 ==>
                currentQuestionIndex == old(currentQuestionIndex) && currentPhase == LogoUpload
    {
      HandleAnswer(answer);
      if pendingAdvances > 0 {
        AdvanceTimerFires();
      } else {
        LogoTimerFires();
      }
    }

    /**
     * `clicks` answers on a question before the last one, all within the
     * 300 ms before the first timer runs, and then every timer: the index
     * moves `clicks` places, skipping questions, and runs past the last
     * question when that is more than remain; every click writes its answer
     * under the same question's id.
     */
    method ClicksWithinDelay(answer: string, clicks: nat)
      requires currentQuestionIndex < |QuestionIds| - 1 && pendingAdvances == 0
      modifies this`answers, this`pendingAdvances, this`pendingLogo, this`currentQuestionIndex
      ensures pendingAdvances == 0 && pendingLogo == old(pendingLogo)
      ensures currentQuestionIndex == old(currentQuestionIndex) + clicks
      ensures old(currentQuestionIndex) + clicks >= |QuestionIds| ==> !ShowsQuestion()
      ensures clicks > 0 ==> answers == old(answers)[QuestionIds[old(currentQuestionIndex)] := answer]
      ensures clicks == 0 ==> answers == old(answers)
    {
      var n := 0;
      while n < clicks
        invariant 0 <= n <= clicks
        invariant currentQuestionIndex == old(currentQuestionIndex)
        invariant pendingAdvances == n && pendingLogo == old(pendingLogo)
        invariant n > 0 ==> answers == old(answers)[QuestionIds[old(currentQuestionIndex)] := answer]
        invariant n == 0 ==> answers == old(answers)
      {
        HandleAnswer(answer);
        n := n + 1;
      }
      while pendingAdvances > 0
        invariant pendingLogo == old(pendingLogo)
        invariant currentQuestionIndex + pendingAdvances == old(currentQuestionIndex) + clicks
        invariant clicks > 0 ==> answers == old(answers)[QuestionIds[old(currentQuestionIndex)] := answer]
        invariant clicks == 0 ==> answers == old(answers)
      {
        AdvanceTimerFires();
      }
    }

    /**
     * Answering every question in turn from the first, each time waiting
     * for the timer, visits all six in order, records one answer per
     * question id and ends in the logo phase.
     */
    method AnswerAll(replies: seq<string>)
      requires currentQuestionIndex == 0 && currentPhase == Questions && pendingAdvances == 0 && pendingLogo == 0
      requires |replies| == |QuestionIds|
      modifies this`answers, this`pendingAdvances, this`pendingLogo, this`currentQuestionIndex, this`currentPhase
      ensures ShowsQuestion() && currentPhase == LogoUpload
      ensures forall k :: 0 <= k < |QuestionIds| ==> QuestionIds[k] in answers && answers[QuestionIds[k]] == replies[k]
    {
      var n := 0;
      while n < |replies|
        invariant 0 <= n <= |replies| && ShowsQuestion() && pendingAdvances == 0 && pendingLogo == 0
        invariant n < |replies| ==> currentQuestionIndex == n && currentPhase == Questions
        invariant n == |replies| ==> currentPhase == LogoUpload
        invariant forall k :: 0 <= k < n ==> QuestionIds[k] in answers && answers[QuestionIds[k]] == replies[k]
      {
        AnswerAndWait(replies[n]);
        n := n + 1;
      }
    }

    /** The text question's input: typing overwrites the shown question's answer only. */
    method EditTextAnswer(value: string)
      requires ShowsQuestion()
      modifies this`answers
      ensures answers == old(answers)[QuestionIds[currentQuestionIndex] := value]
    {
      answers := answers[QuestionIds[currentQuestionIndex] := value];
    }

    /** `handleLogoUpload`: a picked file is remembered; without one nothing changes. */
    method HandleLogoUpload(file: Option<File>)
      modifies this`logoFile
      ensures file.Some? ==> logoFile == file
      ensures file.None? ==> logoFile == old(logoFile)
    {
      if file.Some? {
        logoFile := file;
      }
    }

    method FinishWizard()
      modifies this`currentPhase
      ensures currentPhase == Result
    {
      currentPhase := Result;
    }
  }

  /**
   * Two quick clicks on the fifth question skip the sixth and leave the
   * index at 6, past the last question, while the phase is still the
   * questions phase: the questions screen then reads `QUESTIONS[6]`.
   */
  method DoubleClickOnFifthQuestion() returns (w: Wizard)
    ensures w.currentPhase == Questions && w.currentQuestionIndex == |QuestionIds|
    ensures !w.ShowsQuestion()
  {
    w := new Wizard();
    w.StartQuestions();
    w.AnswerAndWait("a");
    w.AnswerAndWait("b");
    w.AnswerAndWait("c");
    w.AnswerAndWait("d");
    w.ClicksWithinDelay("e", 2);
  }
}

=== FILE: text.dfy ===
/**
 * The two JavaScript string operations the wizard's rule table relies on:
 * `String.prototype.includes` (substring search) and
 * `String.prototype.toLowerCase` (Unicode default lower-casing, which is
 * NOT locale-aware: 'I' becomes dotted 'i', never Turkish dotless 'ı').
 */
module Text {

  /** `sub` occurs in `s` starting at index `i`. */
  predicate OccursAt(s: string, sub: string, i: int) {
    0 <= i && i + |sub| <= |s| && s[i..i + |sub|] == sub
  }

  /** `s.includes(sub)`. */
  predicate Includes(s: string, sub: string) {
    exists i :: 0 <= i <= |s| - |sub| && OccursAt(s, sub, i)
  }

  /** Searching for a one-character string is searching for that character. */
  lemma IncludesChar(s: string, c: char)
    ensures Includes(s, [c]) <==> c in s
  {
    if c in s {
      var i :| 0 <= i < |s| && s[i] == c;
      assert OccursAt(s, [c], i);
    }
    if Includes(s, [c]) {
      var i :| 0 <= i <= |s| - 1 && OccursAt(s, [c], i);
      assert s[i] == s[i..i + 1][0] == c;
    }
  }

  /** Every character of a found substring is a character of the string. */
  lemma IncludesCharOf(s: string, sub: string, k: nat)
    requires Includes(s, sub) && k < |sub|
    ensures sub[k] in s
  {
    var i :| 0 <= i <= |s| - |sub| && OccursAt(s, sub, i);
    assert s[i + k] == s[i..i + |sub|][k] == sub[k];
  }

  /** The capital letters whose lower-case form is a single character. */
  function SimpleLower(c: char): (l: char)
    ensures 'A' <= c <= 'Z' ==> l as int == c as int + 32
    ensures 'À' <= c <= 'Þ' && c != '×' ==> l as int == c as int + 32
    ensures c == 'Ğ' ==> l == 'ğ'
    ensures c == 'Ş' ==> l == 'ş'
    ensures !('A' <= c <= 'Z' || ('À' <= c <= 'Þ' && c != '×') || c == 'Ğ' || c == 'Ş') ==> l == c
  {
    if 'A' <= c <= 'Z' then (c as int + 32) as char
    else if 'À' <= c <= 'Þ' && c != '×' then (c as int + 32) as char
    else if c == 'Ğ' then 'ğ'
    else if c == 'Ş' then 'ş'
    else c
  }

  /** Lower-case form of one character: 'İ' (U+0130) becomes two characters,
      'i' followed by a combining dot above, as in JavaScript. */
  function LowerChar(c: char): string {
    if c == 'İ' then "i\U{0307}" else [SimpleLower(c)]
  }

  /** `s.toLowerCase()`, for the Latin-1 and Turkish capitals. */
  function ToLower(s: string): string {
    if s == [] then [] else LowerChar(s[0]) + ToLower(s[1..])
  }

  /** Lower-casing distributes over concatenation. */
  lemma {:induction false} ToLowerAppend(a: string, b: string)
    ensures ToLower(a + b) == ToLower(a) + ToLower(b)
  {
    if a == [] {
      assert a + b == b;
    } else {
      assert (a + b)[1..] == a[1..] + b;
      ToLowerAppend(a[1..], b);
    }
  }

  /** Without 'İ', lower-casing works character by character and keeps the length. */
  lemma {:induction false} ToLowerPointwise(s: string)
    requires 'İ' !in s
    ensures |ToLower(s)| == |s|
    ensures forall k :: 0 <= k < |s| ==> ToLower(s)[k] == SimpleLower(s[k])
  {
    if s != [] {
      ToLowerPointwise(s[1..]);
    }
  }

  /** No character lower-cases to dotless 'ı' (U+0131): it can only come from the input. */
  lemma {:induction false} ToLowerNoDotlessI(s: string)
    requires 'ı' !in s
    ensures 'ı' !in ToLower(s)
  {
    if s != [] {
      assert s[0] != 'ı' && 'ı' !in s[1..];
      ToLowerNoDotlessI(s[1..]);
    }
  }

  /** The capital whose lower-case form is the given letter. */
  function UpperOf(c: char): char
    requires 'a' <= c <= 'z' || c == 'ğ'
  {
    if c == 'ğ' then 'Ğ' else (c as int - 32) as char
  }

  /**
   * A lower-case letter other than 'i' (which 'İ' also produces) shows up
   * after lower-casing only where the letter or its capital was.
   */
  lemma {:induction false} LowerLetterOrigin(s: string, c: char)
    requires ('a' <= c <= 'z' || c == 'ğ') && c != 'i'
    requires c in ToLower(s)
    ensures c in s || UpperOf(c) in s
  {
    assert s != [];
    if c in LowerChar(s[0]) {
      assert s[0] != 'İ';
      assert c == SimpleLower(s[0]);
    } else {
      assert c in ToLower(s[1..]);
      LowerLetterOrigin(s[1..], c);
    }
  }

  /** A keyword with a letter that neither case of which occurs in `s` is not found in `s.toLowerCase()`. */
  lemma KeywordAbsent(s: string, keyword: string, k: nat)
    requires k < |keyword| && ('a' <= keyword[k] <= 'z' || keyword[k] == 'ğ') && keyword[k] != 'i'
    requires keyword[k] !in s && UpperOf(keyword[k]) !in s
    ensures !Includes(ToLower(s), keyword)
  {
    if Includes(ToLower(s), keyword) {
      IncludesCharOf(ToLower(s), keyword, k);
      LowerLetterOrigin(s, keyword[k]);
    }
  }

  /** A keyword found, letter by letter, in the lower-case forms of `s` from index `i` on is found in `s.toLowerCase()`. */
  lemma OccursAfterLower(s: string, keyword: string, i: nat)
    requires 'İ' !in s && i + |keyword| <= |s|
    requires forall j :: 0 <= j < |keyword| ==> SimpleLower(s[i + j]) == keyword[j]
    ensures Includes(ToLower(s), keyword)
  {
    ToLowerPointwise(s);
    assert ToLower(s)[i..i + |keyword|] == keyword;
    assert OccursAt(ToLower(s), keyword, i);
  }
}

=== FILE: typing.dfy ===
/**
 * The `useTypewriter` hook of MockupWizard.tsx, MockupWizardold.tsx and
 * test/src/components/MockupWizard.tsx, whose tick bodies are identical
 * (only the default period differs, and every call passes 80 ms): an
 * interval reveals the text one character per tick and, on the tick after
 * the last character, marks the text complete and clears itself.
 */
module Typing {

  class Typewriter {
    /** The text being typed (the hook's argument). */
    var text: string
    /** The interval closure's counter `i`. */
    var i: nat
    var displayText: string
    var isComplete: bool
    /** Whether the interval is still scheduled. */
    var running: bool

    /** The shown text is always the first `i` characters of the target. */
    ghost predicate Valid()
      reads this
    {
      && i <= |text|
      && displayText == text[..i]
      && (isComplete ==> i == |text| && !running)
      && (!running ==> isComplete)
    }

    /** The effect on mount: clear the text, reset the counter, start the interval. */
    constructor (text: string)
      ensures Valid() && running && !isComplete
      ensures this.text == text && i == 0 && displayText == ""
    {
      this.text := text;
      i := 0;
      displayText := "";
      isComplete := false;
      running := true;
    }

    /** The effect re-running because the text changed: start over on the new text. */
    method Restart(newText: string)
      modifies this
      ensures Valid() && running && !isComplete
      ensures text == newText && i == 0 && displayText == ""
    {
      text := newText;
      i := 0;
      displayText := "";
      isComplete := false;
      running := true;
    }

    /** One interval tick: reveal one more character, or finish once all are shown. */
    method Tick()
      requires Valid() && running
      modifies this
      ensures Valid() && text == old(text)
      ensures isComplete <==> old(i) == |text|
      ensures old(i) < |text| ==> i == old(i) + 1 && displayText == text[..old(i) + 1] && running
      ensures old(i) == |text| ==> i == old(i) && displayText == old(displayText) && !running
    {
      if i < |text| {
        displayText := text[..i + 1];
        i := i + 1;
      } else {
        isComplete := true;
        running := false;
      }
    }

    /** Letting the interval run out shows the whole text, after `|text| - i + 1` ticks. */
    method RunToEnd() returns (ticks: nat)
      requires Valid() && running
      modifies this
      ensures Valid() && text == old(text)
      ensures isComplete && !running && displayText == text
      ensures ticks == |text| - old(i) + 1
    {
      ticks := 0;
      while running
        invariant Valid() && text == old(text)
        invariant old(i) <= i
        invariant running ==> ticks == i - old(i)
        invariant !running ==> ticks == |text| - old(i) + 1 && i == |text|
        decreases |text| - i + (if running then 1 else 0)
      {
        Tick();
        ticks := ticks + 1;
      }
      assert displayText == text[..|text|] == text;
    }
  }
}
